=== FILE: README.md ===
# crypto-vault: key custody, gas and swap rules, token rotation, frontend state

A Dafny model of the logic at the centre of the crypto-vault wallet service:

- the **TTL stores** (`CacheService`, `TokenStorageService`): string-keyed maps
  of values with an optional absolute expiry, evicted lazily when a read finds
  them stale (`ttl.dfy`, class `Ttl.Store`);
- the **key vault** (`VaultService`): private keys kept only as ciphertext
  records under `wallet/<userId>/<uuid>`, produced either by the remote key
  management service (record `iv` is the marker `"KMS"`) or by local
  AES-256-GCM (record `iv` is the hex nonce); reads go through the shared
  cache, which holds the ciphertext record for 60 seconds; rotation re-stores
  a key under a new path and then drops the old one (`vault.dfy`);
- **gas and fees** (`estimateGasForTransfer`, the gas choice and fee fields of
  `sendToken`): BigInt arithmetic with per-tier margins (110/120/140 %) and
  multipliers (80/100/130 %), under the EIP-1559 and legacy fee models
  (`wallet.dfy`);
- **swaps** through the 0x aggregator with Permit2: symbol lookup (ETH is
  traded as WETH), the allowance test, quote metadata (`validTo` five minutes
  ahead), quote expiry, the signature-length word and signature appended to
  the calldata, the 120 % gas limit and the fee fields, approval status
  (`swap.dfy`);
- **authentication**: refresh tokens recorded as `refresh:<userId>:<jti>` for
  seven days and consumed on use (single-use rotation), logout, and the
  input checks of registration and login (`auth.dfy`);
- the frontend's **reducers** for the wallet screen and the session
  (`walletreducer.dfy`, `authreducer.dfy`), its **validators** (password
  strength, e-mail pattern; `validators.dfy`) and `formatAddress`
  (`formatters.dfy`);
- shared pieces: `Option`/`Result`, JavaScript truthiness of optional numbers,
  BigInt truncating division and string length in UTF-16 code units
  (`prelude.dfy`); Node's hex encoding and
  decoding, the 32-byte hex word, and `String.prototype.split` on one
  character (`encoding.dfy`).

The clock (`Date.now()`) is an argument `now` in milliseconds. Randomness
(uuid, cipher nonce, JWT ids) arrives as arguments. Every answer from outside
the process is an argument too: the node's gas estimate and fee data, the
hash it assigns to a submitted transaction, the aggregator's quote, the
token contract's allowance, the remote `Encrypt` reply, the database lookups
and the JWT verification. A `None` or `Err` argument stands for a call that
failed or threw. The ciphers are functions held in a `Crypto` value: local
seal and open, and remote decrypt. Their round trip is a hypothesis
(`LocalRoundTrip`, `KmsReplyGenuine`) of the lemmas that need it.

Services that change state are classes whose methods are proved against pure
functions of the old state: `Store.Get` against `Lookup`/`AfterGet`,
`VaultService.GetPrivateKey` against `Retrieve`, `VaultService.RotateKey`
against `Rotate`, `AuthService.RefreshToken` against `Refresh`. The
properties are proved as lemmas about those functions. The vault keeps the
invariant `Coherent`: the cache holds, under `key:<path>`, exactly the
vault's ciphertext record for `path`, and remote records exist only where
the remote backend is configured. Under it the cache is transparent.

Where the written description of the system and the code differ, the model
follows the code:

- The cache holds the ciphertext record `{encrypted, iv}`, not the decrypted
  key (backend/src/services/vault.service.ts:205). A cache hit therefore
  decrypts again; "two reads within the TTL decrypt once" does not hold.
  `SecondReadFromCache` proves what does hold: the second read is served from
  the cache entry and returns the same key.
- All retrieval failures surface as the single message "Failed to retrieve
  private key"; there are no separate not-found and decryption errors.
- A remote record read from the cache needs only a remote client; read from
  the vault it also needs the configured key id. Outside the `Coherent`
  invariant these two paths can disagree.
- The remote fallback in `storePrivateKey` happens when `Encrypt` throws or
  returns no blob. That is modelled as `kmsReply == None`.
- `estimateGasForTransfer` multiplies `feeData.gasPrice` in both fee models,
  so a null gas price fails the estimate even on an EIP-1559 network.

## Model

| member | source | states |
|---|---|---|
| Prelude.Utf16Length | frontend/src/utils/validators.ts:19-21 | `s.length` counts UTF-16 code units: between one and two per character, exactly one per character when all lie in the Basic Multilingual Plane |
| Ttl.ExpiryFor | backend/src/services/cache.service.ts:18-23 | a deadline is recorded iff the TTL is truthy, and a positive TTL puts it after `now` |
| Ttl.Lookup | backend/src/services/cache.service.ts:5-16 | a read returns only the value stored under the key, and always returns it when the entry has no truthy expiry |
| Ttl.AfterGet | backend/src/services/cache.service.ts:10-13 | a read removes nothing but possibly its own key, changes no entry, and does not change what that read returns |
| Ttl.Store.constructor | backend/src/services/cache.service.ts:3 | a new store is empty |
| Ttl.Store.Get | backend/src/services/cache.service.ts:5-16 | returns the value iff the key is present and not past a truthy expiry (strict `<`); a stale entry is removed and nothing else changes; an absent key changes nothing |
| Ttl.Store.Set | backend/src/services/cache.service.ts:18-25 | the key maps to the value with expiry `now + 1000 s` for a truthy `s`, none otherwise; every other key unchanged (last writer wins) |
| Ttl.Store.Delete | backend/src/services/cache.service.ts:27-29 | returns whether the key was present; afterwards it is absent and every other key unchanged |
| Ttl.LiveUntilDeadline | backend/src/services/cache.service.ts:9-24 | a value stored with a positive TTL `s` at `t` is served up to and including `t + 1000 s`, and missed afterwards |
| Ttl.NoDeadlineNeverExpires | backend/src/services/token-storage.service.ts:19-26 | stored with TTL omitted or 0, a value is served at every time |
| Ttl.FiveSecondEntry | backend/src/services/token-storage.service.ts:6-26 | a 5-second entry written at t is present at t+4 s and absent at t+6 s |
| Ttl.EvictionUnobservable | backend/src/services/token-storage.service.ts:10-14 | dropping a stale entry on read changes no later read of any key |
| Ttl.WritesAreLocal | backend/src/services/token-storage.service.ts:25-29 | `set` and `del` on one key leave every other key's reads unchanged; after `del` the key reads as missing |
| Encoding.Hex | backend/src/services/vault.service.ts:41-42 | hex encoding has two lower-case hex digits per byte |
| Encoding.DecodeHex | backend/src/services/vault.service.ts:51 | lenient hex decoding yields at most one byte per two characters |
| Encoding.DecodeHexRoundTrip | backend/src/services/vault.service.ts:35-63 | decoding the hex encoding of any bytes gives the bytes back |
| Encoding.HexWord | backend/src/services/swap.service.ts:336-338 | a number below 16^width is written in exactly `width` lower-case hex digits |
| Encoding.HexWordRoundTrip | backend/src/services/swap.service.ts:336-338 | reading the hex word back gives the number |
| Encoding.Split | backend/src/services/vault.service.ts:49 | splitting gives at least one piece; no piece contains the separator; joining the pieces with it rebuilds the string |
| Encoding.SplitNoSeparator | backend/src/services/vault.service.ts:221 | a string without the separator splits into itself alone |
| Encoding.SplitAtFirst | backend/src/services/vault.service.ts:49 | a string splits first at its first separator |
| Vault.EncryptLocal | backend/src/services/vault.service.ts:23-44 | local encryption succeeds iff the cipher does; its `iv` is the hex nonce, twice the nonce length, and never the remote marker |
| Vault.DecryptLocal | backend/src/services/vault.service.ts:47-66 | an encrypted field without ':' cannot be decrypted, nor one whose ciphertext has an odd number of hex digits (`decipher.update` with hex input throws) |
| Vault.LocalRecordOpens | backend/src/services/vault.service.ts:23-66 | decrypting a locally encrypted record, by splitting at ':' and hex-decoding, gives the plaintext back |
| Vault.DecryptRecord | backend/src/services/vault.service.ts:145-200 | a remote record fails when the calling path finds the remote backend unusable; a local record decrypts the same way whatever the configuration |
| Vault.SealRecord | backend/src/services/vault.service.ts:76-129 | the record carries the remote marker iff the remote backend is configured and answered; storing fails iff remote is not used and local encryption fails |
| Vault.SealedRecordOpens | backend/src/services/vault.service.ts:76-202 | whichever backend produced it, a fresh record decrypts to the stored key |
| Vault.Retrieve | backend/src/services/vault.service.ts:139-212 | every failure is "Failed to retrieve private key"; the cache changes at most under `key:<path>`, and what it then holds there is the old entry or the vault's ciphertext record for `path` |
| Vault.RetrieveReadsVault | backend/src/services/vault.service.ts:139-211 | under the invariant a read returns the decryption of the vault record, or the generic failure when there is none: the cache is transparent |
| Vault.RetrieveKeepsCoherent | backend/src/services/vault.service.ts:142-205 | reads preserve the invariant: only the vault's ciphertext record is ever cached |
| Vault.StoreKeepsCoherent | backend/src/services/vault.service.ts:93-124 | storing under a fresh path preserves the invariant |
| Vault.StoreThenRetrieve | backend/src/services/vault.service.ts:70-212 | round trip: a key stored under a fresh path reads back unchanged, at any later time |
| Vault.RetrieveUnknownPath | backend/src/services/vault.service.ts:170-211 | a path in neither cache nor vault fails with "Failed to retrieve private key" |
| Vault.RemoteRecordNeedsRemote | backend/src/services/vault.service.ts:180-184 | a remote record read with the remote backend unconfigured fails; local decryption is not attempted |
| Vault.VaultReadCachesCiphertext | backend/src/services/vault.service.ts:204-205 | after a vault read the cache holds the ciphertext record under `key:<path>` with a 60-second expiry |
| Vault.SecondReadFromCache | backend/src/services/vault.service.ts:141-168 | within 60 seconds a second read is served from the cache and returns the same key |
| Vault.Rotate | backend/src/services/vault.service.ts:215-239 | a failure is "Failed to rotate encryption key" and leaves the vault as it was; a success removes the old path from vault and cache, holds the new path, and no other path is lost |
| Vault.RotateFailureKeepsRecords | backend/src/services/vault.service.ts:215-239 | a failed rotation leaves every vault record in place |
| Vault.KeyPathSegments | backend/src/services/vault.service.ts:221-225 | a path the vault issues splits into "wallet", the user id and the uuid |
| Vault.RotateMovesKey | backend/src/services/vault.service.ts:215-234 | rotating an issued path succeeds when the key reads and re-seals; it returns a new path under the same user, and the old path is gone from vault and cache |
| Vault.CacheKeyInjective | backend/src/services/vault.service.ts:142-144 | distinct paths have distinct cache keys |
| Vault.DropKeepsCoherent | backend/src/services/vault.service.ts:231-232 | deleting a path from the vault together with its cache entry keeps the invariant |
| Vault.RotateKeepsCoherent | backend/src/services/vault.service.ts:215-239 | a rotation to a fresh path keeps the invariant |
| Vault.RotateRoundTrip | backend/src/services/vault.service.ts:215-239 | after rotation the invariant holds, the new path reads the old key, and the old path no longer reads |
| Vault.VaultService.constructor | backend/src/services/vault.service.ts:9-20 | an empty vault and an empty cache satisfy the invariant |
| Vault.VaultService.StorePrivateKey | backend/src/services/vault.service.ts:70-136 | returns `wallet/<userId>/<uuid>` and adds exactly that record, or fails and changes nothing; keeps the invariant for a fresh path |
| Vault.VaultService.GetPrivateKey | backend/src/services/vault.service.ts:139-212 | result and new cache are those of `Retrieve`; keeps the invariant |
| Vault.VaultService.RotateKey | backend/src/services/vault.service.ts:215-239 | result, vault and cache are those of `Rotate`: store first, then delete; keeps the invariant when a new path is not already in the vault |
| Wallet.EstimateGasForTransfer | backend/src/services/wallet.service.ts:187-300 | the estimate succeeds iff the node gave an estimate and a gas price; the failure carries the "Failed to estimate gas: " prefix; the fee is the gas limit times the max fee under EIP-1559 and times the gas price otherwise |
| Wallet.FeeModel | backend/src/services/wallet.service.ts:187-300 | the estimate fails iff the node gave no estimate or no gas price. The gas limit is raw × margin / 100. The EIP-1559 model is used iff both node fee fields are truthy, with fee = limit × max fee; otherwise fee = limit × gas price and there are no max-fee fields |
| Wallet.StandardTierUsesNodeFees | backend/src/services/wallet.service.ts:254-265 | on the standard tier every fee field equals the node's value |
| Wallet.FastTierPriority | backend/src/services/wallet.service.ts:254-265 | on the fast tier the priority fee is 130 % of the node's, truncated |
| Wallet.TierPercentages | backend/src/services/wallet.service.ts:200-285 | slow takes 110 % of the raw estimate and 80 % of every node fee, standard 120 % and 100 %, fast 140 % and 130 %, each truncated |
| Wallet.TierOrdering | backend/src/services/wallet.service.ts:200-218 | for fixed node answers the gas limit, every fee field and the total fee are ordered slow ≤ standard ≤ fast |
| Wallet.SelectGas | backend/src/services/wallet.service.ts:339-369 | without options, or with an options object that has no keys, a failed estimate is the error; otherwise the standard estimate sets the gas limit and either both EIP-1559 fields or the gas price, never both; with options each field is the caller's, taken independently |
| Wallet.AttachFees | backend/src/services/wallet.service.ts:381-389 | a truthy gas limit is attached. Max fee and priority are attached iff both are truthy, else the gas price iff truthy. Never both kinds |
| Wallet.EstimatedRequestHasOneFeeModel | backend/src/services/wallet.service.ts:339-389 | without caller options, on a network with a positive gas price, the request built from the estimate carries the EIP-1559 pair iff the network supports it, else the gas price |
| Wallet.WalletService.SendToken | backend/src/services/wallet.service.ts:303-442 | an unknown wallet fails before any key retrieval, and a key-retrieval failure fails. A failed gas selection fails with its message and sends nothing. Otherwise the request sent carries `AttachFees` of the gas choice (so never both fee kinds). A rejected submission fails with the node's message. An accepted one returns a "pending" receipt with the hash, the transfer and the chosen gas values |
| Swap.FindToken | backend/src/services/swap.service.ts:43 | finds the first table row with the symbol, and finds one iff one exists |
| Swap.TokenAddress | backend/src/services/swap.service.ts:37-45 | ETH resolves to WETH; any other symbol resolves only when it is listed |
| Swap.ListedTokensHaveAddresses | backend/src/config/tokens.ts:10-87 | ETH is the first row; every other row has an address |
| Swap.TokenAddressResolution | backend/src/services/swap.service.ts:37-45 | a symbol resolves iff it is listed; ETH resolves to WETH; any other listed symbol resolves to the address in its own table row |
| Swap.SymbolsAreDistinct | backend/src/config/tokens.ts:10-87 | no symbol appears in two rows of the token table |
| Swap.FindTokenUnique | backend/src/services/swap.service.ts:43-44 | in a table without repeated symbols, `find` returns the row carrying the symbol |
| Swap.AllowanceOk | backend/src/services/swap.service.ts:48-77 | WETH is approved without a query; otherwise approved iff the reading succeeded and current ≥ required |
| Swap.SwapQuoteFor | backend/src/services/swap.service.ts:207-294 | an unknown sell symbol, then an unknown buy symbol, fails with "Unknown token: X". A quote is returned iff both resolve and the aggregator answered, with `needsAllowance = !approved` and `validTo = now + 300000` |
| Swap.QuoteExpired | backend/src/services/swap.service.ts:300-302 | a quote without a deadline never expires, and a deadline not yet passed is accepted |
| Swap.QuoteLivesFiveMinutes | backend/src/services/swap.service.ts:281-302 | a quote issued at t is accepted up to and including t + 300000 ms and rejected after |
| Swap.LengthWord | backend/src/services/swap.service.ts:336-338 | the length word is 64 hex digits |
| Swap.PermitCalldata | backend/src/services/swap.service.ts:323-342 | the appended calldata exists iff the signature length fits the 32-byte word; it then keeps the quote's data as prefix and adds 64 + 2·len(sig) digits |
| Swap.PermitCalldataDecodes | backend/src/services/swap.service.ts:323-342 | the calldata keeps the quote's data as prefix and appends 64 + 2·len(sig) hex digits. The first 64 read back as len(sig), the rest decode to the signature |
| Swap.ApprovalStatus | backend/src/services/swap.service.ts:124 | "success" iff the receipt status is 1, else "failed" |
| Swap.SwapService.ExecuteSwap | backend/src/services/swap.service.ts:297-398 | an expired quote fails before the wallet lookup and key retrieval. The request carries the quote's data, or the Permit2 calldata, and gas limit estimate × 120 / 100. It carries max fee and priority iff both are truthy, else the gas price. A success is "pending". A live quote with a key, a signature where Permit2 needs one and an estimate is always sent; a node rejection gives its message, and an accepted submission gives the receipt with the hash, both swap legs (sell and buy token, sell and buy amount), the gas limit and the node's fee fields. The key, signature, padding and estimate failures each give their own message after the "Failed to execute swap: " prefix |
| Swap.SwapService.ApproveTokenForPermit2 | backend/src/services/swap.service.ts:80-133 | an unknown wallet fails before key retrieval. The status is "success" iff the receipt status is 1. The spender is Permit2. With a key, an accepted submission and a mined receipt the approval always succeeds with that hash; the key, submission and receipt failures each give their own message after the "Failed to approve token: " prefix |
| Auth.RefreshKeyInjective | backend/src/services/auth.service.ts:47 | for one user, distinct token ids give distinct store keys |
| Auth.Issue | backend/src/services/auth.service.ts:45-47 | the store gains `refresh:<user>:<jti> ↦ "valid"` with a seven-day deadline; every other key is unchanged |
| Auth.Refresh | backend/src/services/auth.service.ts:132-173 | a success returns the new token id and needs a token of this user; a failure never adds or changes an entry (at most the stale one is evicted) |
| Auth.RefreshRejectsForeignTokens | backend/src/services/auth.service.ts:136-153 | an unverifiable token, another user's token or an outdated version fails with its own message and leaves the store unchanged |
| Auth.RefreshNeedsLiveEntry | backend/src/services/auth.service.ts:155-167 | a successful refresh had a live entry for the token id; afterwards that entry is gone and a seven-day entry for the new id exists |
| Auth.RefreshIsSingleUse | backend/src/services/auth.service.ts:163-167 | once a refresh succeeded, the same token fails at any later time |
| Auth.IssuedTokenRefreshes | backend/src/services/auth.service.ts:45-47 | for a token that verifies, the store entry written when it was issued at t keeps it refreshable through t + 7 days inclusive, and not after (the JWT's own expiry is part of verification, see "## Left out") |
| Auth.LogoutStore | backend/src/services/auth.service.ts:176-200 | logout removes exactly the token's entry when it verifies with a non-empty id, and nothing else |
| Auth.LogoutRevokes | backend/src/services/auth.service.ts:190-193 | after logout the same token no longer refreshes |
| Auth.RegisterRejection | backend/src/services/auth.service.ts:56-68 | registration proceeds iff all fields are non-empty, the password has ≥ 8 UTF-16 code units and the email is free; the refusals come in the code's order with its messages: "All fields are required", then "Password must be at least 8 characters long", then "Email already in use" |
| Auth.LoginRejection | backend/src/services/auth.service.ts:98-113 | login proceeds iff both fields are given, the account exists and the password matches; an empty field is refused with "Email and password are required", and an unknown email or a wrong password with "Invalid credentials" |
| Auth.LoginDoesNotRevealAccounts | backend/src/services/auth.service.ts:104-113 | unknown email and wrong password give the identical error |
| Auth.AuthService.GenerateTokens | backend/src/services/auth.service.ts:12-50 | the ids are the hex of the random bytes; the store gains `refresh:<user>:<jti> ↦ "valid"` for seven days |
| Auth.AuthService.RefreshToken | backend/src/services/auth.service.ts:132-173 | result and store are those of `Refresh` |
| Auth.AuthService.Logout | backend/src/services/auth.service.ts:176-201 | always returns true; the store is `LogoutStore` of the old store |
| Auth.AuthService.Register | backend/src/services/auth.service.ts:53-93 | a rejected registration changes nothing; an accepted one issues tokens for the new user |
| Auth.AuthService.Login | backend/src/services/auth.service.ts:96-129 | a rejected login changes nothing; an accepted one issues tokens for the account |
| WalletReducer.Reduce | frontend/src/contexts/WalletContext.tsx:79-146 | no action loses a selection or the balances of an address; only a reload of the wallet list can shorten it |
| WalletReducer.LoadWalletsKeepsSelection | frontend/src/contexts/WalletContext.tsx:91-101 | loading wallets replaces the list and keeps an existing selection, otherwise selects the first wallet or none |
| WalletReducer.GenerateWalletAppendsAndSelects | frontend/src/contexts/WalletContext.tsx:102-109 | a generated wallet is appended (length + 1, earlier wallets in place) and selected; loading ends and the error is cleared |
| WalletReducer.BalancesAreLocal | frontend/src/contexts/WalletContext.tsx:127-135 | loaded balances are set under their address and every other address is unchanged; loading ends, the error is kept |
| WalletReducer.RequestsStartLoading | frontend/src/contexts/WalletContext.tsx:84-126 | wallet requests set loading and clear the error; the balance request sets loading and keeps the error |
| WalletReducer.FailuresRecordError | frontend/src/contexts/WalletContext.tsx:110-141 | every failure stops loading, records its message and changes nothing else |
| WalletReducer.SelectAndOther | frontend/src/contexts/WalletContext.tsx:117-143 | selecting changes only the selection; unknown actions change nothing |
| AuthReducer.Reduce | frontend/src/contexts/AuthContext.tsx:59-110 | every action preserves "authenticated ⇒ user present"; logout and both failures leave the session signed out |
| AuthReducer.SuccessSignsIn | frontend/src/contexts/AuthContext.tsx:68-78 | login and registration success both authenticate with the user and both tokens, stop loading and clear the error |
| AuthReducer.FailureSignsOut | frontend/src/contexts/AuthContext.tsx:79-89 | both failures clear user and tokens, unauthenticate and record the message |
| AuthReducer.LogoutClearsSession | frontend/src/contexts/AuthContext.tsx:90-97 | logout clears user, tokens and authentication and keeps loading and error |
| AuthReducer.InitializeFromStorage | frontend/src/contexts/AuthContext.tsx:98-106 | initialising restores the stored user, access token and refresh token, authenticates iff a stored user exists, stops loading and keeps the error |
| AuthReducer.RequestsAndOther | frontend/src/contexts/AuthContext.tsx:61-108 | requests only set loading and clear the error; unknown actions are the identity |
| AuthReducer.RunKeepsConsistent | frontend/src/contexts/AuthContext.tsx:59-110 | every sequence of actions preserves it |
| AuthReducer.ReachableStatesConsistent | frontend/src/contexts/AuthContext.tsx:113-120 | every state reachable from the initial state satisfies it |
| Validators.IsValidPassword | frontend/src/utils/validators.ts:19-21 | at least 8 UTF-16 code units: 8 characters always suffice and at least 4 are needed; with every character in the Basic Multilingual Plane, valid iff at least 8 characters |
| Validators.Criteria | frontend/src/utils/validators.ts:37-50 | at most five criteria |
| Validators.Strength | frontend/src/utils/validators.ts:52 | the score is at most 4, and 4 exactly when at least four criteria hold |
| Validators.GetPasswordStrength | frontend/src/utils/validators.ts:34-53 | the score equals min(4, number of criteria met), in [0, 4] |
| Validators.StrengthExtremes | frontend/src/utils/validators.ts:34-53 | the empty string scores 0; meeting all five criteria scores 4 |
| Validators.StrengthOfNonEmpty | frontend/src/utils/validators.ts:19-21 | a non-empty password scores at least 1 and a valid (≥ 8 characters) one at least 2 |
| Validators.FirstIndex | frontend/src/utils/validators.ts:14 | the first '@' position, or none when there is no '@' |
| Validators.LastIndex | frontend/src/utils/validators.ts:14 | the last '.' position, or none when there is no '.' |
| Validators.IsValidEmail | frontend/src/utils/validators.ts:13-16 | every address `isValidEmail` accepts matches the e-mail pattern |
| Validators.IsValidEmailMatchesPattern | frontend/src/utils/validators.ts:13-16 | `isValidEmail` accepts exactly the strings of the e-mail pattern (both directions) |
| Validators.AcceptedEmailShape | frontend/src/utils/validators.ts:13-16 | an accepted address has exactly one '@' and ends with '.' and at least two ASCII letters |
| Validators.AcceptedExample | frontend/src/utils/validators.ts:13-16 | a short well-formed address is accepted |
| Validators.RefusedExample | frontend/src/utils/validators.ts:13-16 | an address whose top-level domain has one letter is refused |
| Formatters.SliceIndex | frontend/src/utils/formatters.ts:11 | a slice index counts from the end when negative and is clamped to the string |
| Formatters.JsSlice | frontend/src/utils/formatters.ts:11 | a slice is no longer than the string |
| Formatters.JsSliceFrom | frontend/src/utils/formatters.ts:11 | a slice to the end is no longer than the string |
| Formatters.FormatAddress | frontend/src/utils/formatters.ts:4-12 | the result is "" iff the address is ""; an address shorter than prefix + suffix is returned unchanged |
| Formatters.FormatAddressShortens | frontend/src/utils/formatters.ts:10-11 | for suffix ≥ 1 the result is first `prefix` characters, "...", last `suffix` characters; its length is prefix + 3 + suffix |
| Formatters.ZeroSuffixRepeatsAddress | frontend/src/utils/formatters.ts:11 | with suffix 0, `slice(-0)` is the whole address, which follows the "..." |
| Formatters.DefaultFormatOfAddress | frontend/src/utils/formatters.ts:4-8 | with the defaults 6 and 4 a 42-character address formats to 13 characters |

## Left out

- Network, database, clock and randomness are arguments, as described above.
  The services' logging is not modelled.
- The ciphers (scrypt key derivation, AES-256-GCM, the remote key service)
  are functions with a round-trip hypothesis. Tamper detection is a property
  of the cipher and is not modelled. Base64 conversion of the remote blob is
  folded into the remote service's functions.
- Asynchronous interleaving is not modelled: every operation runs to
  completion. In the code, two concurrent refreshes of one token can both
  pass the store check before either deletes it, so `Auth.RefreshIsSingleUse`
  holds for sequential calls only. The same applies to concurrent rotations of
  one path.
- `Ttl.Store`: the cache holds values of any type. In the vault model it
  holds the vault's ciphertext records only, which are the only values the
  modelled code puts there. TTL seconds and `Date.now()` are JavaScript
  numbers; they are modelled as integers.
- Vault.VaultService.StorePrivateKey: the 16-byte length of the cipher nonce
  and the uniqueness of the uuid are not enforced. The invariant is kept only
  for a path that is not already in the vault.
- Vault.KeyPathSegments: user ids containing '/' are excluded. For such an id
  `rotateKey` re-stores the key under the id's first segment, as `Rotate`
  computes.
- Wallet.SelectGas: caller options are already-parsed integers. A
  non-numeric option string makes `BigInt` throw, and that failure is not
  modelled.
- Formatters.FormatAddress: indices count characters, while JavaScript's
  `slice` and `length` count UTF-16 code units. The two differ only for
  characters outside the Basic Multilingual Plane, which addresses do not
  contain. Password and registration lengths do count code units
  (`Prelude.Utf16Length`).
- `new ethers.Wallet(privateKey, provider)` throws on a decrypted key that is
  not a well-formed private key (wallet.service.ts, swap.service.ts). The
  model assumes every decrypted key is well formed, so `sendToken`,
  `approveTokenForPermit2` and `executeSwap` never fail at that step.
- `provider.getFeeData()` can reject. The fee data is an argument that is
  always present, so that failure of `estimateGasForTransfer` and
  `executeSwap` is not modelled; a missing estimate or gas price is.
- Auth.AuthService.Register: `user.save()` can fail after every check has
  passed. The database write is assumed to succeed.
- Wallet.FeeModel: the fee in ether (`formatEther`) is kept as the wei
  integer. The estimate's failure causes (decimals lookup, `parseUnits`,
  simulation) are one `None` argument. Inner error messages are abbreviated
  to the service's own prefix.
- Wallet.WalletService.SendToken: the native and token transfers differ only
  in how the node is called; both build the modelled request. The amount is a
  string and is passed through.
- Swap.SwapService.ExecuteSwap: `quote` is the client's JSON. Only the fields
  the method reads are modelled; the EIP-712 payload is a flag plus the
  signer's answer. `parseUnits(quote.value, "wei")` passes the string
  through. In `getSwapQuote` the sell amount is converted with the table's
  decimals (`decimals || 18`) before the aggregator is called; that
  conversion and its failure are part of the aggregator's answer.
- PaddingOverflow: ethers' `zeroPadValue` error is modelled by its message
  "padding exceeds data length" alone, without the details ethers appends
  (code BUFFER_OVERRUN, the offending value); it needs a signature of
  16^64 bytes.
- `getPrice` is an HTTP call with symbol lookup only; its lookup is
  `Swap.TokenAddress`, shared with `getSwapQuote`. The rest is not modelled.
- JWT signing is a pair of functions, and verification is the `decoded`
  argument. That includes the refresh token's own seven-day expiry, which
  `jwt.verify` enforces in whole seconds: a token verifies only before the
  second its `exp` names, so at exactly seven days it is already refused,
  even though `Auth.IssuedTokenRefreshes` shows its store entry still live. Password hashing and the
  user database are arguments of `Register` and `Login`.
- `getTokenBalances`, the UI pages and components, the controllers and
  routes, the HTTP clients, the float-based formatters and `isValidAmount`,
  `isValidAddress` and `isValidTransactionAmount` are outside this model.

=== FILE: auth.dfy ===
/** Authentication (`AuthService`): token issue, single-use refresh-token
    rotation and logout over the refresh-token store, plus the input checks of
    registration and login. JWT signing is a pair of functions held by the
    service; JWT verification is the `decoded` argument (None when the token
    does not verify); the random JWT ids come from byte arguments; the clock
    is `now` in milliseconds. */
module Auth {
  import opened Prelude
  import opened Encoding
  import opened Ttl

  /** The payload of both tokens. */
  datatype Claims = Claims(userId: string, jti: string, version: string)

  datatype Signer = Signer(access: Claims -> string, refresh: Claims -> string)

  datatype Tokens = Tokens(accessToken: string, refreshToken: string, refreshJti: string)

  const TokenVersion: string := "v1"
  /** Seven days, in seconds. */
  const RefreshSeconds: int := 7 * 24 * 60 * 60
  const Valid: string := "valid"

  const InvalidRefresh: string := "Invalid refresh token"
  const WrongUser: string := "Token does not match user"
  const Outdated: string := "Token version is outdated"

  /** The store key of a refresh token. */
  function RefreshKey(userId: string, jti: string): string {
    "refresh:" + userId + ":" + jti
  }

  /** For one user, distinct ids give distinct keys. */
  lemma RefreshKeyInjective(userId: string, a: string, b: string)
    requires RefreshKey(userId, a) == RefreshKey(userId, b)
    ensures a == b
  {
    var n := |"refresh:" + userId + ":"|;
    assert a == RefreshKey(userId, a)[n..];
    assert b == RefreshKey(userId, b)[n..];
  }

  /** The store after issuing a refresh token with id `jti` at `now`. */
  function Issue(m: map<string, Entry<string>>, userId: string, jti: string, now: int): (r: map<string, Entry<string>>)
    ensures RefreshKey(userId, jti) in r && r[RefreshKey(userId, jti)] == Entry(Valid, Some(now + 604800000))
    ensures forall k | k != RefreshKey(userId, jti) :: (k in r <==> k in m)
    ensures forall k | k != RefreshKey(userId, jti) && k in m :: r[k] == m[k]
  {
    m[RefreshKey(userId, jti) := Entry(Valid, ExpiryFor(Some(RefreshSeconds), now))]
  }

  /** The outcome of a refresh: the new refresh id, or the error; and the store. */
  datatype Refreshed = Refreshed(result: Result<string>, store: map<string, Entry<string>>)

  /** `refreshToken` as a function of the store. `newJti` is the id the
      rotation would issue. */
  function Refresh(m: map<string, Entry<string>>, userId: string, decoded: Option<Claims>, now: int, newJti: string): (r: Refreshed)
    ensures r.result.Ok? ==> r.result.value == newJti && decoded.Some? && decoded.value.userId == userId
    ensures r.result.Err? ==> forall k | k in r.store :: k in m && r.store[k] == m[k]
  {
    if decoded.None? then Refreshed(Err(InvalidRefresh), m)
    else if decoded.value.userId != userId then Refreshed(Err(WrongUser), m)
    else if decoded.value.version != TokenVersion then Refreshed(Err(Outdated), m)
    else
      var key := RefreshKey(userId, decoded.value.jti);
      var read := Lookup(m, key, now);
      var m' := AfterGet(m, key, now);
      if read.None? || read.value == "" then Refreshed(Err(InvalidRefresh), m')
      else Refreshed(Ok(newJti), Issue(m' - {key}, userId, newJti, now))
  }

  /** A token that does not verify, belongs to someone else or has another
      version is refused before the store is read. */
  lemma RefreshRejectsForeignTokens(m: map<string, Entry<string>>, userId: string, decoded: Option<Claims>, now: int, newJti: string)
    ensures decoded.None? ==> Refresh(m, userId, decoded, now, newJti) == Refreshed(Err(InvalidRefresh), m)
    ensures decoded.Some? && decoded.value.userId != userId ==>
              Refresh(m, userId, decoded, now, newJti) == Refreshed(Err(WrongUser), m)
    ensures decoded.Some? && decoded.value.userId == userId && decoded.value.version != TokenVersion ==>
              Refresh(m, userId, decoded, now, newJti) == Refreshed(Err(Outdated), m)
  {
  }

  /** A refresh succeeds only with a live, non-empty entry for the token's id,
      and then the old entry is gone and a fresh seven-day entry exists. */
  lemma RefreshNeedsLiveEntry(m: map<string, Entry<string>>, userId: string, decoded: Option<Claims>, now: int, newJti: string)
    requires Refresh(m, userId, decoded, now, newJti).result.Ok?
    requires decoded.Some? ==> newJti != decoded.value.jti
    ensures decoded.Some? && decoded.value.userId == userId && decoded.value.version == TokenVersion
    ensures var key := RefreshKey(userId, decoded.value.jti);
            Lookup(m, key, now).Some? && Lookup(m, key, now).value != ""
    ensures var s := Refresh(m, userId, decoded, now, newJti).store;
            && RefreshKey(userId, decoded.value.jti) !in s
            && s[RefreshKey(userId, newJti)] == Entry(Valid, Some(now + 604800000))
  {
    if RefreshKey(userId, decoded.value.jti) == RefreshKey(userId, newJti) {
      RefreshKeyInjective(userId, decoded.value.jti, newJti);
    }
  }

  /** Single use: once a refresh has succeeded, presenting the same token
      again fails, at any later time. */
  lemma RefreshIsSingleUse(m: map<string, Entry<string>>, userId: string, claims: Claims, now: int, newJti: string,
                           later: int, newerJti: string)
    requires newJti != claims.jti
    requires Refresh(m, userId, Some(claims), now, newJti).result.Ok?
    ensures Refresh(Refresh(m, userId, Some(claims), now, newJti).store, userId, Some(claims), later, newerJti).result
            == Err(InvalidRefresh)
  {
    RefreshNeedsLiveEntry(m, userId, Some(claims), now, newJti);
  }

  /** For a token that verifies, the store entry written when it was issued at
      `t` keeps it refreshable through `t` plus seven days, inclusive, and not
      after. (The JWT's own seven-day expiry is checked by verification, which
      is the `decoded` argument; it refuses the token already at that last
      millisecond.) */
  lemma IssuedTokenRefreshes(m: map<string, Entry<string>>, userId: string, jti: string, t: nat, now: int, newJti: string)
    requires t <= now
    ensures Refresh(Issue(m, userId, jti, t), userId, Some(Claims(userId, jti, TokenVersion)), now, newJti).result.Ok?
            <==> now <= t + 604800000
  {
    var key := RefreshKey(userId, jti);
    LiveUntilDeadline(m, key, Valid, RefreshSeconds, t, now);
  }

  /** `logout`'s effect on the store: the entry for the token's id is removed
      when the token verifies and carries a non-empty id. */
  function LogoutStore(m: map<string, Entry<string>>, userId: string, decoded: Option<Claims>): (m': map<string, Entry<string>>)
    ensures forall k | k in m' :: k in m && m'[k] == m[k]
    ensures forall k | k in m && (decoded.None? || decoded.value.jti == "" || k != RefreshKey(userId, decoded.value.jti)) ::
              k in m'
    ensures decoded.Some? && decoded.value.jti != "" ==> RefreshKey(userId, decoded.value.jti) !in m'
  {
    if decoded.Some? && decoded.value.jti != "" then m - {RefreshKey(userId, decoded.value.jti)} else m
  }

  /** After logout a refresh with the same token fails. */
  lemma LogoutRevokes(m: map<string, Entry<string>>, userId: string, claims: Claims, now: int, newJti: string)
    requires claims.jti != ""
    ensures Refresh(LogoutStore(m, userId, Some(claims)), userId, Some(claims), now, newJti).result.Err?
  {
  }

  const FieldsRequired: string := "All fields are required"
  const PasswordTooShort: string := "Password must be at least 8 characters long"
  const EmailInUse: string := "Email already in use"
  const CredentialsRequired: string := "Email and password are required"
  const InvalidCredentials: string := "Invalid credentials"

  /** `register`'s refusals, in order; `emailTaken` is the user lookup. */
  function RegisterRejection(email: string, password: string, username: string, emailTaken: bool): (e: Option<string>)
    ensures e.None? <==> email != "" && password != "" && username != "" && Utf16Length(password) >= 8 && !emailTaken
    ensures email == "" || password == "" || username == "" ==> e == Some(FieldsRequired)
    ensures email != "" && password != "" && username != "" && Utf16Length(password) < 8 ==> e == Some(PasswordTooShort)
    ensures email != "" && password != "" && username != "" && Utf16Length(password) >= 8 && emailTaken ==>
              e == Some(EmailInUse)
  {
    if email == "" || password == "" || username == "" then Some(FieldsRequired)
    else if Utf16Length(password) < 8 then Some(PasswordTooShort)
    else if emailTaken then Some(EmailInUse)
    else None
  }

  /** `login`'s refusals; `account` is the user lookup, `passwordMatches`
      the password comparison (consulted only for an existing account). */
  function LoginRejection(email: string, password: string, account: Option<string>, passwordMatches: bool): (e: Option<string>)
    ensures e.None? <==> email != "" && password != "" && account.Some? && passwordMatches
    ensures e.Some? && e.value != CredentialsRequired ==> e.value == InvalidCredentials
    ensures email == "" || password == "" ==> e == Some(CredentialsRequired)
    ensures email != "" && password != "" && (account.None? || !passwordMatches) ==> e == Some(InvalidCredentials)
  {
    if email == "" || password == "" then Some(CredentialsRequired)
    else if account.None? then Some(InvalidCredentials)
    else if !passwordMatches then Some(InvalidCredentials)
    else None
  }

  /** An unknown email and a wrong password are indistinguishable. */
  lemma LoginDoesNotRevealAccounts(email: string, password: string, id: string)
    requires email != "" && password != ""
    ensures LoginRejection(email, password, None, true) == LoginRejection(email, password, Some(id), false)
  {
  }

  class AuthService {
    const tokens: Store<string>
    const signer: Signer

    constructor (tokens: Store<string>, signer: Signer)
      ensures this.tokens == tokens && this.signer == signer
    {
      this.tokens := tokens;
      this.signer := signer;
    }

    /** `generateTokens`: both ids are the hex of the random bytes; only the
        refresh token is recorded, for seven days. */
    method GenerateTokens(userId: string, accessBytes: seq<Byte>, refreshBytes: seq<Byte>, now: int) returns (t: Tokens)
      modifies tokens
      ensures t.refreshJti == Hex(refreshBytes)
      ensures t.accessToken == signer.access(Claims(userId, Hex(accessBytes), TokenVersion))
      ensures t.refreshToken == signer.refresh(Claims(userId, t.refreshJti, TokenVersion))
      ensures tokens.entries == Issue(old(tokens.entries), userId, t.refreshJti, now)
    {
      var accessJti := Hex(accessBytes);
      var refreshJti := Hex(refreshBytes);
      var accessToken := signer.access(Claims(userId, accessJti, TokenVersion));
      var refreshToken := signer.refresh(Claims(userId, refreshJti, TokenVersion));
      tokens.Set(RefreshKey(userId, refreshJti), Valid, Some(RefreshSeconds), now);
      t := Tokens(accessToken, refreshToken, refreshJti);
    }

    /** `refreshToken`: checks the token, consumes its entry and issues a new pair. */
    method RefreshToken(userId: string, decoded: Option<Claims>, accessBytes: seq<Byte>, refreshBytes: seq<Byte>, now: int)
      returns (r: Result<Tokens>)
      modifies tokens
      ensures var spec := Refresh(old(tokens.entries), userId, decoded, now, Hex(refreshBytes));
              && tokens.entries == spec.store
              && (spec.result.Err? ==> r == Err(spec.result.error))
              && (spec.result.Ok? ==> r.Ok? && r.value.refreshJti == spec.result.value)
    {
      if decoded.None? {
        return Err(InvalidRefresh);
      }
      if decoded.value.userId != userId {
        return Err(WrongUser);
      }
      if decoded.value.version != TokenVersion {
        return Err(Outdated);
      }
      var key := RefreshKey(userId, decoded.value.jti);
      var isValid := tokens.Get(key, now);
      if isValid.None? || isValid.value == "" {
        return Err(InvalidRefresh);
      }
      var _ := tokens.Delete(key);
      var t := GenerateTokens(userId, accessBytes, refreshBytes, now);
      r := Ok(t);
    }

    /** `logout`: always succeeds; removes the token's entry when it verifies. */
    method Logout(userId: string, decoded: Option<Claims>) returns (ok: bool)
      modifies tokens
      ensures ok
      ensures tokens.entries == LogoutStore(old(tokens.entries), userId, decoded)
    {
      if decoded.Some? && decoded.value.jti != "" {
        var _ := tokens.Delete(RefreshKey(userId, decoded.value.jti));
      }
      return true;
    }

    /** `register` after the user lookup (`emailTaken`); `userId` is the id the
        database assigns to the saved user. */
    method Register(email: string, password: string, username: string, emailTaken: bool, userId: string,
                    accessBytes: seq<Byte>, refreshBytes: seq<Byte>, now: int) returns (r: Result<Tokens>)
      modifies tokens
      ensures RegisterRejection(email, password, username, emailTaken).Some? ==>
                r == Err(RegisterRejection(email, password, username, emailTaken).value) && unchanged(tokens)
      ensures RegisterRejection(email, password, username, emailTaken).None? ==>
                r.Ok? && r.value.refreshJti == Hex(refreshBytes)
                && tokens.entries == Issue(old(tokens.entries), userId, Hex(refreshBytes), now)
    {
      var rejection := RegisterRejection(email, password, username, emailTaken);
      if rejection.Some? {
        return Err(rejection.value);
      }
      var t := GenerateTokens(userId, accessBytes, refreshBytes, now);
      r := Ok(t);
    }

    /** `login` after the user lookup (`account`, the user's id) and the
        password comparison. */
    method Login(email: string, password: string, account: Option<string>, passwordMatches: bool,
                 accessBytes: seq<Byte>, refreshBytes: seq<Byte>, now: int) returns (r: Result<Tokens>)
      modifies tokens
      ensures LoginRejection(email, password, account, passwordMatches).Some? ==>
                r == Err(LoginRejection(email, password, account, passwordMatches).value) && unchanged(tokens)
      ensures LoginRejection(email, password, account, passwordMatches).None? ==>
                r.Ok? && r.value.refreshJti == Hex(refreshBytes)
                && tokens.entries == Issue(old(tokens.entries), account.value, Hex(refreshBytes), now)
    {
      var rejection := LoginRejection(email, password, account, passwordMatches);
      if rejection.Some? {
        return Err(rejection.value);
      }
      var t := GenerateTokens(account.value, accessBytes, refreshBytes, now);
      r := Ok(t);
    }
  }
}

=== FILE: authreducer.dfy ===
/** The session state machine of the authentication context (`authReducer`). */
module AuthReducer {
  import opened Prelude

  datatype User = User(id: string, email: string, username: string)

  datatype AuthState = AuthState(
    user: Option<User>,
    accessToken: Option<string>,
    refreshToken: Option<string>,
    isAuthenticated: bool,
    isLoading: bool,
    error: Option<string>)

  /** `Other` is any action type the reducer does not handle. */
  datatype AuthAction =
    | LoginRequest
    | LoginSuccess(user: User, accessToken: string, refreshToken: string)
    | LoginFailure(message: string)
    | RegisterRequest
    | RegisterSuccess(user: User, accessToken: string, refreshToken: string)
    | RegisterFailure(message: string)
    | Logout
    | Initialize(storedUser: Option<User>, storedAccess: Option<string>, storedRefresh: Option<string>)
    | Other

  /** Before the stored session is read the context is loading. */
  const InitialState: AuthState := AuthState(None, None, None, false, true, None)

  /** Every action keeps `Consistent`; logout and the failures always leave
      the session signed out. */
  function Reduce(s: AuthState, a: AuthAction): (r: AuthState)
    ensures Consistent(s) ==> Consistent(r)
    ensures a.Logout? || a.LoginFailure? || a.RegisterFailure? ==> !r.isAuthenticated && r.user.None?
  {
    match a
    case LoginRequest => s.(isLoading := true, error := None)
    case RegisterRequest => s.(isLoading := true, error := None)
    case LoginSuccess(u, at, rt) => SignedIn(s, u, at, rt)
    case RegisterSuccess(u, at, rt) => SignedIn(s, u, at, rt)
    case LoginFailure(msg) => SignedOut(s).(isLoading := false, error := Some(msg))
    case RegisterFailure(msg) => SignedOut(s).(isLoading := false, error := Some(msg))
    case Logout => SignedOut(s)
    case Initialize(u, at, rt) =>
      s.(isLoading := false, isAuthenticated := u.Some?, user := u, accessToken := at, refreshToken := rt)
    case Other => s
  }

  function SignedIn(s: AuthState, u: User, at: string, rt: string): AuthState {
    s.(isLoading := false, isAuthenticated := true, user := Some(u),
       accessToken := Some(at), refreshToken := Some(rt), error := None)
  }

  function SignedOut(s: AuthState): AuthState {
    s.(isAuthenticated := false, user := None, accessToken := None, refreshToken := None)
  }

  /** Either success signs the user in with both tokens, stops loading and
      clears the error. */
  lemma SuccessSignsIn(s: AuthState, u: User, at: string, rt: string)
    ensures Reduce(s, LoginSuccess(u, at, rt)) == Reduce(s, RegisterSuccess(u, at, rt))
    ensures var t := Reduce(s, LoginSuccess(u, at, rt));
            t.isAuthenticated && t.user == Some(u) && t.accessToken == Some(at) && t.refreshToken == Some(rt)
            && !t.isLoading && t.error.None?
  {
  }

  /** Either failure signs out and records the message. */
  lemma FailureSignsOut(s: AuthState, msg: string)
    ensures Reduce(s, LoginFailure(msg)) == Reduce(s, RegisterFailure(msg))
    ensures var t := Reduce(s, LoginFailure(msg));
            !t.isAuthenticated && t.user.None? && t.accessToken.None? && t.refreshToken.None?
            && !t.isLoading && t.error == Some(msg)
  {
  }

  /** Logout clears the session but leaves loading and the error as they were. */
  lemma LogoutClearsSession(s: AuthState)
    ensures var t := Reduce(s, Logout);
            !t.isAuthenticated && t.user.None? && t.accessToken.None? && t.refreshToken.None?
            && t.isLoading == s.isLoading && t.error == s.error
  {
  }

  /** Initialising restores the stored user and tokens, authenticates exactly
      when a stored user exists and ends loading. */
  lemma InitializeFromStorage(s: AuthState, u: Option<User>, at: Option<string>, rt: Option<string>)
    ensures Reduce(s, Initialize(u, at, rt)).isAuthenticated <==> u.Some?
    ensures Reduce(s, Initialize(u, at, rt)).user == u
    ensures !Reduce(s, Initialize(u, at, rt)).isLoading
    ensures Reduce(s, Initialize(u, at, rt)).error == s.error
    ensures Reduce(s, Initialize(u, at, rt)).accessToken == at
    ensures Reduce(s, Initialize(u, at, rt)).refreshToken == rt
  {
  }

  /** Requests only start loading and clear the error; unhandled actions are
      the identity. */
  lemma RequestsAndOther(s: AuthState)
    ensures Reduce(s, LoginRequest) == s.(isLoading := true, error := None)
    ensures Reduce(s, RegisterRequest) == s.(isLoading := true, error := None)
    ensures Reduce(s, Other) == s
  {
  }

  /** The session invariant: an authenticated state always has a user. */
  predicate Consistent(s: AuthState) {
    s.isAuthenticated ==> s.user.Some?
  }

  /** The state after dispatching `actions` in order. */
  function Run(s: AuthState, actions: seq<AuthAction>): AuthState
    decreases |actions|
  {
    if actions == [] then s else Run(Reduce(s, actions[0]), actions[1..])
  }

  /** From the initial state, every sequence of actions leads to a consistent
      state: the UI never sees an authenticated session without a user. */
  lemma {:induction false} RunKeepsConsistent(s: AuthState, actions: seq<AuthAction>)
    requires Consistent(s)
    ensures Consistent(Run(s, actions))
    decreases |actions|
  {
    if actions != [] {
      RunKeepsConsistent(Reduce(s, actions[0]), actions[1..]);
    }
  }

  lemma ReachableStatesConsistent(actions: seq<AuthAction>)
    ensures Consistent(Run(InitialState, actions))
  {
    RunKeepsConsistent(InitialState, actions);
  }
}

=== FILE: encoding.dfy ===
/** The string encodings the services rely on: Node's `Buffer` hex encoding
    and decoding, the fixed-width big-endian hex word that ethers'
    `zeroPadValue(toBeHex(n), 32)` produces, and JavaScript's
    `String.prototype.split` on a one-character separator. */
module Encoding {
  import opened Prelude

  predicate IsLowerHex(c: char) {
    '0' <= c <= '9' || 'a' <= c <= 'f'
  }

  /** Characters Node accepts in a hex string (either case). */
  predicate IsHexChar(c: char) {
    '0' <= c <= '9' || 'a' <= c <= 'f' || 'A' <= c <= 'F'
  }

  function HexDigit(n: nat): (c: char)
    requires n < 16
    ensures IsLowerHex(c)
  {
    if n < 10 then ('0' as int + n) as char else ('a' as int + n - 10) as char
  }

  function DigitValue(c: char): (n: nat)
    requires IsHexChar(c)
    ensures n < 16
  {
    if c <= '9' then c as int - '0' as int
    else if c >= 'a' then c as int - 'a' as int + 10
    else c as int - 'A' as int + 10
  }

  lemma DigitRoundTrip(n: nat)
    requires n < 16
    ensures DigitValue(HexDigit(n)) == n
  {
  }

  /** `Buffer.toString("hex")`: two lower-case digits per byte, high nibble first. */
  function Hex(bs: seq<Byte>): (s: string)
    ensures |s| == 2 * |bs|
    ensures forall i | 0 <= i < |s| :: IsLowerHex(s[i])
  {
    if bs == [] then ""
    else [HexDigit(bs[0] / 16), HexDigit(bs[0] % 16)] + Hex(bs[1..])
  }

  /** `Buffer.from(s, "hex")`: decodes digit pairs from the start and stops at
      the first pair that is not two hex digits (a trailing odd digit is dropped). */
  function DecodeHex(s: string): (bs: seq<Byte>)
    ensures 2 * |bs| <= |s|
  {
    if |s| < 2 || !IsHexChar(s[0]) || !IsHexChar(s[1]) then []
    else [DigitValue(s[0]) * 16 + DigitValue(s[1])] + DecodeHex(s[2..])
  }

  /** Hex decoding inverts hex encoding. */
  lemma {:induction false} DecodeHexRoundTrip(bs: seq<Byte>)
    ensures DecodeHex(Hex(bs)) == bs
  {
    if bs != [] {
      var s := Hex(bs);
      DigitRoundTrip(bs[0] / 16);
      DigitRoundTrip(bs[0] % 16);
      assert s[2..] == Hex(bs[1..]);
      DecodeHexRoundTrip(bs[1..]);
    }
  }

  function Pow16(k: nat): (p: nat)
    ensures p >= 1
  {
    if k == 0 then 1 else 16 * Pow16(k - 1)
  }

  /** `n` as exactly `width` lower-case hex digits, most significant first
      (the digits of a `width / 2`-byte big-endian word). */
  function HexWord(n: nat, width: nat): (s: string)
    requires n < Pow16(width)
    ensures |s| == width
    ensures forall i | 0 <= i < |s| :: IsLowerHex(s[i])
  {
    if width == 0 then "" else HexWord(n / 16, width - 1) + [HexDigit(n % 16)]
  }

  /** The number a string of hex digits denotes, most significant first. */
  function HexValue(s: string): nat
    requires forall i | 0 <= i < |s| :: IsHexChar(s[i])
  {
    if s == [] then 0 else 16 * HexValue(s[..|s| - 1]) + DigitValue(s[|s| - 1])
  }

  /** Reading a hex word back yields the number it encodes. */
  lemma {:induction false} HexWordRoundTrip(n: nat, width: nat)
    requires n < Pow16(width)
    ensures HexValue(HexWord(n, width)) == n
  {
    if width > 0 {
      var s := HexWord(n, width);
      var hi := HexWord(n / 16, width - 1);
      assert s[..|s| - 1] == hi;
      HexWordRoundTrip(n / 16, width - 1);
      DigitRoundTrip(n % 16);
    }
  }

  /** Glues `parts` back together with `sep` between consecutive parts. */
  function Join(parts: seq<string>, sep: char): string
    requires |parts| >= 1
  {
    if |parts| == 1 then parts[0] else parts[0] + [sep] + Join(parts[1..], sep)
  }

  /** `s.split(sep)` for a one-character separator: the maximal pieces between
      separators, so the empty string splits into one empty piece. */
  function Split(s: string, sep: char): (parts: seq<string>)
    ensures |parts| >= 1
    ensures Join(parts, sep) == s
    ensures forall i | 0 <= i < |parts| :: sep !in parts[i]
  {
    if s == [] then [""]
    else
      var rest := Split(s[1..], sep);
      if s[0] == sep then [""] + rest
      else [[s[0]] + rest[0]] + rest[1..]
  }

  /** A string free of the separator is one piece. */
  lemma {:induction false} SplitNoSeparator(a: string, sep: char)
    requires sep !in a
    ensures Split(a, sep) == [a]
  {
    if a != [] {
      SplitNoSeparator(a[1..], sep);
    }
  }

  /** Splitting at the first separator: the text before it is the first piece. */
  lemma {:induction false} SplitAtFirst(a: string, b: string, sep: char)
    requires sep !in a
    ensures Split(a + [sep] + b, sep) == [a] + Split(b, sep)
  {
    var s := a + [sep] + b;
    if a == [] {
      assert s[1..] == b;
    } else {
      assert s[1..] == a[1..] + [sep] + b;
      SplitAtFirst(a[1..], b, sep);
      assert [s[0]] + a[1..] == a;
    }
  }
}

=== FILE: formatters.dfy ===
/** `formatAddress`: shortens an address for display as its first `prefix`
    characters, "...", and its last `suffix` characters. */
module Formatters {

  /** Resolves a `String.prototype.slice` index: a negative index counts from
      the end, and the result is clamped to `[0, n]`. */
  function SliceIndex(i: int, n: nat): (k: nat)
    ensures k <= n
    ensures 0 <= i <= n ==> k == i
    ensures i < 0 && n + i >= 0 ==> k == n + i
  {
    if i < 0 then (if n + i < 0 then 0 else n + i)
    else if i > n then n else i
  }

  /** `s.slice(start, end)`: empty when the resolved start is not before the
      resolved end. */
  function JsSlice(s: string, start: int, end: int): (r: string)
    ensures |r| <= |s|
  {
    var from, to := SliceIndex(start, |s|), SliceIndex(end, |s|);
    if from < to then s[from..to] else ""
  }

  /** `s.slice(start)`. */
  function JsSliceFrom(s: string, start: int): (r: string)
    ensures |r| <= |s|
  {
    JsSlice(s, start, |s|)
  }

  const Ellipsis: string := "..."
  const DefaultPrefix: int := 6
  const DefaultSuffix: int := 4

  /** `formatAddress(address, prefix, suffix)`; `-suffix` is evaluated as a
      number, so a suffix of 0 slices from index 0: the whole string. */
  function FormatAddress(address: string, prefix: int, suffix: int): (r: string)
    ensures r == "" <==> address == ""
    ensures address != "" && |address| < prefix + suffix ==> r == address
  {
    if address == "" then ""
    else if |address| < prefix + suffix then address
    else JsSlice(address, 0, prefix) + Ellipsis + JsSliceFrom(address, -suffix)
  }

  /** With a positive suffix an address long enough is shortened to its first
      `prefix` and last `suffix` characters around "...", which is
      `prefix + 3 + suffix` characters long. */
  lemma FormatAddressShortens(address: string, prefix: int, suffix: int)
    requires prefix >= 0 && suffix >= 1
    requires address != "" && |address| >= prefix + suffix
    ensures FormatAddress(address, prefix, suffix)
            == address[..prefix] + Ellipsis + address[|address| - suffix..]
    ensures |FormatAddress(address, prefix, suffix)| == prefix + 3 + suffix
  {
    assert SliceIndex(-suffix, |address|) == |address| - suffix;
    if prefix == 0 {
      assert JsSlice(address, 0, prefix) == "" == address[..0];
    }
  }

  /** With a suffix of 0 the whole address follows the "...". */
  lemma ZeroSuffixRepeatsAddress(address: string, prefix: int)
    requires 0 <= prefix <= |address| && address != ""
    ensures FormatAddress(address, prefix, 0) == address[..prefix] + Ellipsis + address
  {
    assert address[0..|address|] == address;
    if prefix == 0 {
      assert JsSlice(address, 0, prefix) == "" == address[..0];
    }
  }

  /** With the defaults a 42-character address shows as 13 characters. */
  lemma DefaultFormatOfAddress(address: string)
    requires |address| == 42
    ensures |FormatAddress(address, DefaultPrefix, DefaultSuffix)| == 13
  {
    FormatAddressShortens(address, DefaultPrefix, DefaultSuffix);
  }
}

=== FILE: prelude.dfy ===
/** Shared value types: optional values, results with an error message, bytes,
    and the JavaScript truthiness test the services apply to optional numbers. */
module Prelude {

  datatype Option<T> = None | Some(value: T)

  /** An operation that either produces a value or fails with the message of
      the `Error` it throws. */
  datatype Result<T> = Ok(value: T) | Err(error: string)

  type Byte = x: int | 0 <= x < 256

  /** `if (x)` on a `number | undefined` or a `bigint | null`: present and non-zero. */
  predicate Truthy(x: Option<int>) {
    x.Some? && x.value != 0
  }

  /** JavaScript's `s.length`: strings are counted in UTF-16 code units, so a
      character outside the Basic Multilingual Plane counts twice. */
  function Utf16Length(s: string): (n: nat)
    ensures |s| <= n <= 2 * |s|
    ensures (forall i | 0 <= i < |s| :: s[i] as int <= 0xFFFF) ==> n == |s|
  {
    if s == [] then 0
    else (if s[0] as int > 0xFFFF then 2 else 1) + Utf16Length(s[1..])
  }

  /** JavaScript `BigInt` division, which truncates toward zero (Dafny's `/`
      is Euclidean and rounds negative quotients down). */
  function TruncDiv(a: int, b: int): int
    requires b > 0
  {
    if a >= 0 then a / b else -((-a) / b)
  }
}

=== FILE: swap.dfy ===
/** Token swaps through the 0x aggregator with Permit2 (`SwapService`).
    The aggregator's HTTP answers, the token contract's allowance reading, the
    node's gas and fee answers, the EIP-712 signer and the submitted
    transaction's hash are arguments. */
module Swap {
  import opened Prelude
  import opened Encoding
  import opened Vault
  import opened Wallet

  /** A row of the static token table. */
  datatype Token = Token(symbol: string, address: Option<string>, decimals: nat)

  const WethAddress: string := "0xc02aaa39b223fe8d0a0e5c4f27ead9083c756cc2"
  const Permit2Address: string := "0x000000000022D473030F116dDEE9F6B43aC78BA3"

  const TokenList: seq<Token> := [
    Token("ETH", None, 18),
    Token("USDT", Some("0xdAC17F958D2ee523a2206206994597C13D831ec7"), 6),
    Token("USDC", Some("0xA0b86991c6218b36c1d19D4a2e9Eb0cE3606eB48"), 6),
    Token("DAI", Some("0x6B175474E89094C44Da98b954EedeAC495271d0F"), 18),
    Token("WBTC", Some("0x2260FAC5E5542a773Aa44fBCfeDf7C193bc2C599"), 8),
    Token("UNI", Some("0x1f9840a85d5aF5bf1D1762F925BDADdC4201F984"), 18),
    Token("LINK", Some("0x514910771AF9Ca656af840dff83E8264EcF986CA"), 18),
    Token("AAVE", Some("0x7Fc66500c84A76Ad7e9c93437bFc5Ac33E2DDaE9"), 18),
    Token("MKR", Some("0x9f8F72aA9304c8B593d555F12eF6589cC3A579A2"), 18),
    Token("COMP", Some("0xc00e94Cb662C3520282E6f5717214004A7f26888"), 18)
  ]

  /** `tokens.find(t => t.symbol === symbol)`: the first row with that symbol. */
  function FindToken(tokens: seq<Token>, symbol: string): (r: Option<Token>)
    ensures r.Some? ==> r.value.symbol == symbol
    ensures r.Some? <==> exists i | 0 <= i < |tokens| :: tokens[i].symbol == symbol
    ensures r.Some? ==> exists i | 0 <= i < |tokens| :: tokens[i] == r.value
                          && forall j | 0 <= j < i :: tokens[j].symbol != symbol
  {
    if tokens == [] then None
    else if tokens[0].symbol == symbol then Some(tokens[0])
    else
      var r := FindToken(tokens[1..], symbol);
      assert forall i | 1 <= i < |tokens| :: tokens[i] == tokens[1..][i - 1];
      r
  }

  /** `getTokenAddressBySymbol`: ETH is swapped as WETH; other symbols take
      the table's address (null when unlisted). */
  function TokenAddress(symbol: string): (r: Option<string>)
    ensures symbol == "ETH" ==> r == Some(WethAddress)
    ensures symbol != "ETH" && r.Some? ==> FindToken(TokenList, symbol).Some?
  {
    if symbol == "ETH" then Some(WethAddress)
    else match FindToken(TokenList, symbol)
      case None => None
      case Some(t) => t.address
  }

  /** Every listed token other than ETH (row 0) has an address. */
  lemma ListedTokensHaveAddresses()
    ensures TokenList[0].symbol == "ETH"
    ensures forall k | 1 <= k < |TokenList| :: TokenList[k].address.Some?
  {
  }

  /** A symbol resolves to an address exactly when it is ETH or listed, and
      ETH resolves to WETH. */
  lemma TokenAddressResolution(symbol: string)
    ensures TokenAddress(symbol).Some? <==> exists i | 0 <= i < |TokenList| :: TokenList[i].symbol == symbol
    ensures symbol == "ETH" ==> TokenAddress(symbol) == Some(WethAddress)
    ensures symbol != "ETH" ==>
              forall i | 0 <= i < |TokenList| && TokenList[i].symbol == symbol :: TokenAddress(symbol) == TokenList[i].address
  {
    ListedTokensHaveAddresses();
    SymbolsAreDistinct();
    var r := FindToken(TokenList, symbol);
    if r.Some? && symbol != "ETH" {
      var k :| 0 <= k < |TokenList| && TokenList[k] == r.value;
      assert k != 0;
    }
    if symbol != "ETH" {
      forall i | 0 <= i < |TokenList| && TokenList[i].symbol == symbol
        ensures TokenAddress(symbol) == TokenList[i].address
      {
        FindTokenUnique(TokenList, symbol, i);
      }
    }
  }

  /** In a table without repeated symbols, a listed symbol finds its own row. */
  lemma FindTokenUnique(tokens: seq<Token>, symbol: string, i: int)
    requires forall j, k | 0 <= j < k < |tokens| :: tokens[j].symbol != tokens[k].symbol
    requires 0 <= i < |tokens| && tokens[i].symbol == symbol
    ensures FindToken(tokens, symbol) == Some(tokens[i])
  {
    var r := FindToken(tokens, symbol);
    assert r.Some?;
    var k :| 0 <= k < |tokens| && tokens[k] == r.value && forall j | 0 <= j < k :: tokens[j].symbol != symbol;
    assert tokens[k].symbol == tokens[i].symbol;
    assert k == i;
  }

  /** No symbol appears twice in the table. */
  lemma SymbolsAreDistinct()
    ensures forall i, j | 0 <= i < j < |TokenList| :: TokenList[i].symbol != TokenList[j].symbol
  {
  }

  /** The token contract's answers: the current Permit2 allowance and the
      sell amount in base units. */
  datatype AllowanceReading = AllowanceReading(current: int, required: int)

  /** `checkTokenAllowance`: WETH needs no approval and is not queried; any
      failure reading the contract (or parsing the amount) counts as "not approved". */
  function AllowanceOk(tokenAddress: string, reading: Result<AllowanceReading>): (ok: bool)
    ensures tokenAddress == WethAddress ==> ok
    ensures tokenAddress != WethAddress ==> (ok <==> reading.Ok? && reading.value.current >= reading.value.required)
  {
    if tokenAddress == WethAddress then true
    else match reading
      case Err(_) => false
      case Ok(a) => a.current >= a.required
  }

  /** The parts of the aggregator's quote response the service forwards. */
  datatype ApiQuote = ApiQuote(to: string, data: string, value: string, buyAmount: string)

  /** What `getSwapQuote` returns: the response plus the service's metadata. */
  datatype SwapQuote = SwapQuote(
    api: ApiQuote,
    needsAllowance: bool,
    sellTokenSymbol: string,
    buyTokenSymbol: string,
    sellTokenAddress: string,
    buyTokenAddress: string,
    sellAmount: string,
    validTo: int)

  const QuoteFailed: string := "Failed to get swap quote: "
  /** Five minutes in milliseconds. */
  const QuoteLifetime: int := 5 * 60 * 1000

  /** `getSwapQuote` at time `now`. `api` is the aggregator's answer (or the
      error raised while parsing the amount or calling it), `allowance` the
      token contract's answer. */
  function SwapQuoteFor(sellToken: string, buyToken: string, sellAmount: string,
                        api: Result<ApiQuote>, allowance: Result<AllowanceReading>, now: int): (r: Result<SwapQuote>)
    ensures TokenAddress(sellToken).None? ==> r == Err(QuoteFailed + "Unknown token: " + sellToken)
    ensures TokenAddress(sellToken).Some? && TokenAddress(buyToken).None? ==>
              r == Err(QuoteFailed + "Unknown token: " + buyToken)
    ensures r.Ok? <==> TokenAddress(sellToken).Some? && TokenAddress(buyToken).Some? && api.Ok?
    ensures r.Ok? ==>
              && r.value.api == api.value
              && r.value.sellTokenAddress == TokenAddress(sellToken).value
              && r.value.buyTokenAddress == TokenAddress(buyToken).value
              && r.value.needsAllowance == !AllowanceOk(r.value.sellTokenAddress, allowance)
              && r.value.validTo == now + 300000
              && r.value.sellAmount == sellAmount
  {
    var sellAddress := TokenAddress(sellToken);
    var buyAddress := TokenAddress(buyToken);
    if sellAddress.None? || buyAddress.None? then
      Err(QuoteFailed + "Unknown token: " + (if sellAddress.None? then sellToken else buyToken))
    else if api.Err? then Err(QuoteFailed + api.error)
    else
      var approved := AllowanceOk(sellAddress.value, allowance);
      Ok(SwapQuote(api.value, !approved, sellToken, buyToken, sellAddress.value, buyAddress.value,
                   sellAmount, now + QuoteLifetime))
  }

  /** `quote.validTo && Date.now() > quote.validTo`: a missing or zero
      deadline never expires, and the deadline instant itself is accepted. */
  predicate QuoteExpired(validTo: Option<int>, now: int): (expired: bool)
    ensures validTo.None? ==> !expired
    ensures validTo.Some? && now <= validTo.value ==> !expired
  {
    Truthy(validTo) && now > validTo.value
  }

  /** A quote issued at `t` (with a non-zero deadline) is accepted for five
      minutes, up to and including the deadline, and rejected afterwards. */
  lemma QuoteLivesFiveMinutes(sellToken: string, buyToken: string, sellAmount: string,
                              api: Result<ApiQuote>, allowance: Result<AllowanceReading>, t: int, now: int)
    requires SwapQuoteFor(sellToken, buyToken, sellAmount, api, allowance, t).Ok?
    requires t + 300000 != 0
    ensures var q := SwapQuoteFor(sellToken, buyToken, sellAmount, api, allowance, t).value;
            QuoteExpired(Some(q.validTo), now) <==> now > t + 300000
  {
  }

  /** The 32-byte big-endian length word `zeroPadValue(toBeHex(n), 32)` without
      its `0x`; None when `n` needs more than 32 bytes (ethers throws). */
  function LengthWord(n: nat): (w: Option<string>)
    ensures w.Some? ==> |w.value| == 64
  {
    if n < Pow16(64) then Some(HexWord(n, 64)) else None
  }

  /** The swap calldata with the Permit2 signature appended: the quote's data,
      the signature's byte length as a 32-byte word, then the signature's hex. */
  function PermitCalldata(data: string, signature: seq<Byte>): (r: Option<string>)
    ensures r.Some? <==> |signature| < Pow16(64)
    ensures r.Some? ==> |r.value| == |data| + 64 + 2 * |signature| && r.value[..|data|] == data
  {
    match LengthWord(|signature|)
    case None => None
    case Some(word) => Some(data + word + Hex(signature))
  }

  /** The appended part is 64 + 2 * |signature| hex digits and decodes back:
      its first 64 digits read as the signature's length and the remainder as
      the signature itself, while the quote's data is kept as a prefix. */
  lemma PermitCalldataDecodes(data: string, signature: seq<Byte>)
    requires |signature| < Pow16(64)
    ensures PermitCalldata(data, signature).Some?
    ensures var s := PermitCalldata(data, signature).value;
            && |s| == |data| + 64 + 2 * |signature|
            && s[..|data|] == data
            && (forall i | |data| <= i < |s| :: IsLowerHex(s[i]))
            && HexValue(s[|data|..|data| + 64]) == |signature|
            && DecodeHex(s[|data| + 64..]) == signature
  {
    var word := HexWord(|signature|, 64);
    var s := data + word + Hex(signature);
    assert s[|data|..|data| + 64] == word;
    assert s[|data| + 64..] == Hex(signature);
    HexWordRoundTrip(|signature|, 64);
    DecodeHexRoundTrip(signature);
  }

  /** The quote as the client sends it back to `executeSwap`. */
  datatype SubmittedQuote = SubmittedQuote(
    validTo: Option<int>,
    to: string,
    data: string,
    value: string,
    hasPermit: bool,
    sellTokenAddress: string,
    buyTokenAddress: string,
    sellAmount: string,
    buyAmount: string)

  /** The signed swap transaction. */
  datatype SwapRequest = SwapRequest(to: string, data: string, value: string, fees: TxFees)

  datatype SwapReceipt = SwapReceipt(
    transactionHash: string,
    from: string,
    to: string,
    sellToken: string,
    buyToken: string,
    sellAmount: string,
    buyAmount: string,
    status: string,
    gasLimit: int,
    gasPrice: Option<int>,
    maxFeePerGas: Option<int>,
    maxPriorityFeePerGas: Option<int>)

  datatype ApprovalReceipt = ApprovalReceipt(
    transactionHash: string,
    status: string,
    from: string,
    to: string,
    spender: string)

  const SwapFailed: string := "Failed to execute swap: "
  const ApproveFailed: string := "Failed to approve token: "
  /** ethers' `zeroPadValue` error for a length that does not fit 32 bytes. */
  const PaddingOverflow: string := "padding exceeds data length"

  /** `receipt.status === 1 ? "success" : "failed"`. */
  function ApprovalStatus(status: int): (s: string)
    ensures s == "success" || s == "failed"
    ensures s == "success" <==> status == 1
  {
    if status == 1 then "success" else "failed"
  }

  class SwapService {
    const vault: VaultService

    constructor (vault: VaultService)
      ensures this.vault == vault
    {
      this.vault := vault;
    }

    /** `executeSwap` at time `now`. `wallet` is the database lookup,
        `signature` the EIP-712 signer's answer (consulted only for a Permit2
        quote), `raw` and `fee` the node's gas estimate and fee data,
        `submitted` the node's answer to the signed request. */
    method ExecuteSwap(wallet: Option<WalletRecord>, walletAddress: string, quote: SubmittedQuote,
                       signature: Result<seq<Byte>>, raw: Result<int>, fee: FeeData,
                       submitted: Result<string>, now: int)
      returns (r: Result<SwapReceipt>, ghost sent: Option<SwapRequest>)
      modifies vault.cache
      ensures QuoteExpired(quote.validTo, now) ==>
                r == Err(SwapFailed + "Quote has expired") && unchanged(vault.cache) && sent.None?
      ensures !QuoteExpired(quote.validTo, now) && wallet.None? ==>
                r == Err(SwapFailed + "Wallet not found") && unchanged(vault.cache) && sent.None?
      ensures !QuoteExpired(quote.validTo, now) && wallet.Some? ==>
                vault.cache.entries == Retrieve(vault.crypto, vault.config, vault.records, old(vault.cache.entries),
                                                wallet.value.vaultKeyPath, now).cache
      ensures sent.Some? ==>
                && !QuoteExpired(quote.validTo, now) && wallet.Some?
                && Retrieve(vault.crypto, vault.config, vault.records, old(vault.cache.entries),
                            wallet.value.vaultKeyPath, now).result.Ok?
                && sent.value.to == quote.to && sent.value.value == quote.value
                && (!quote.hasPermit ==> sent.value.data == quote.data)
                && (quote.hasPermit ==> signature.Ok? && PermitCalldata(quote.data, signature.value) == Some(sent.value.data))
                && raw.Ok? && sent.value.fees.gasLimit == Some(TruncDiv(raw.value * 120, 100))
                && (sent.value.fees.maxFeePerGas.Some? <==> SupportsEip1559(fee))
                && (SupportsEip1559(fee) ==>
                      sent.value.fees.maxFeePerGas == fee.maxFeePerGas
                      && sent.value.fees.maxPriorityFeePerGas == fee.maxPriorityFeePerGas
                      && sent.value.fees.gasPrice.None?)
                && (!SupportsEip1559(fee) ==>
                      sent.value.fees.gasPrice == fee.gasPrice && sent.value.fees.maxPriorityFeePerGas.None?)
      ensures r.Ok? ==>
                && sent.Some? && submitted == Ok(r.value.transactionHash)
                && r.value.status == "pending" && r.value.from == walletAddress && r.value.to == quote.to
                && r.value.gasLimit == sent.value.fees.gasLimit.value
                && r.value.gasPrice == fee.gasPrice && r.value.maxFeePerGas == fee.maxFeePerGas
                && r.value.maxPriorityFeePerGas == fee.maxPriorityFeePerGas
      // The path through the service: each failure carries its own message,
      // and a live quote with a key, a signature where one is needed and an
      // estimate is sent, its receipt carrying both swap legs.
      ensures !QuoteExpired(quote.validTo, now) && wallet.Some? ==>
                var key := Retrieve(vault.crypto, vault.config, vault.records, old(vault.cache.entries),
                                    wallet.value.vaultKeyPath, now).result;
                && (key.Err? ==> r == Err(SwapFailed + key.error) && sent.None?)
                && (key.Ok? && quote.hasPermit && signature.Err? ==>
                      r == Err(SwapFailed + signature.error) && sent.None?)
                && (key.Ok? && quote.hasPermit && signature.Ok? && PermitCalldata(quote.data, signature.value).None? ==>
                      r == Err(SwapFailed + PaddingOverflow) && sent.None?)
      ensures !QuoteExpired(quote.validTo, now) && wallet.Some?
              && Retrieve(vault.crypto, vault.config, vault.records, old(vault.cache.entries),
                          wallet.value.vaultKeyPath, now).result.Ok?
              && (quote.hasPermit ==> signature.Ok? && PermitCalldata(quote.data, signature.value).Some?) ==>
                && (raw.Err? ==> r == Err(SwapFailed + raw.error) && sent.None?)
                && (raw.Ok? ==> sent.Some?)
                && (raw.Ok? && submitted.Err? ==> r == Err(SwapFailed + submitted.error))
                && (raw.Ok? && submitted.Ok? ==>
                      r == Ok(SwapReceipt(submitted.value, walletAddress, quote.to,
                                          quote.sellTokenAddress, quote.buyTokenAddress,
                                          quote.sellAmount, quote.buyAmount, "pending",
                                          TruncDiv(raw.value * 120, 100),
                                          fee.gasPrice, fee.maxFeePerGas, fee.maxPriorityFeePerGas)))
    {
      sent := None;
      if Truthy(quote.validTo) && now > quote.validTo.value {
        return Err(SwapFailed + "Quote has expired"), sent;
      }
      if wallet.None? {
        return Err(SwapFailed + "Wallet not found"), sent;
      }
      var privateKey := vault.GetPrivateKey(wallet.value.vaultKeyPath, now);
      if privateKey.Err? {
        return Err(SwapFailed + privateKey.error), sent;
      }
      var txData := quote.data;
      if quote.hasPermit {
        if signature.Err? {
          return Err(SwapFailed + signature.error), sent;
        }
        var appended := PermitCalldata(quote.data, signature.value);
        if appended.None? {
          return Err(SwapFailed + PaddingOverflow), sent;
        }
        txData := appended.value;
      }
      if raw.Err? {
        return Err(SwapFailed + raw.error), sent;
      }
      var gasLimit := TruncDiv(raw.value * 120, 100);
      var fees := TxFees(Some(gasLimit), None, None, None);
      if Truthy(fee.maxFeePerGas) && Truthy(fee.maxPriorityFeePerGas) {
        fees := fees.(maxFeePerGas := fee.maxFeePerGas, maxPriorityFeePerGas := fee.maxPriorityFeePerGas);
      } else {
        fees := fees.(gasPrice := fee.gasPrice);
      }
      sent := Some(SwapRequest(quote.to, txData, quote.value, fees));
      if submitted.Err? {
        return Err(SwapFailed + submitted.error), sent;
      }
      r := Ok(SwapReceipt(submitted.value, walletAddress, quote.to, quote.sellTokenAddress, quote.buyTokenAddress,
                          quote.sellAmount, quote.buyAmount, "pending", gasLimit,
                          fee.gasPrice, fee.maxFeePerGas, fee.maxPriorityFeePerGas));
    }

    /** `approveTokenForPermit2`: approves the maximum amount for Permit2.
        `submitted` is the node's answer to the approval, `receipt` the mined
        receipt's status (an error when waiting fails or yields no receipt). */
    method ApproveTokenForPermit2(wallet: Option<WalletRecord>, walletAddress: string, tokenAddress: string,
                                  submitted: Result<string>, receipt: Result<int>, now: int)
      returns (r: Result<ApprovalReceipt>)
      modifies vault.cache
      ensures wallet.None? ==> r == Err(ApproveFailed + "Wallet not found") && unchanged(vault.cache)
      ensures wallet.Some? ==>
                vault.cache.entries == Retrieve(vault.crypto, vault.config, vault.records, old(vault.cache.entries),
                                                wallet.value.vaultKeyPath, now).cache
      ensures r.Ok? ==>
                && wallet.Some?
                && Retrieve(vault.crypto, vault.config, vault.records, old(vault.cache.entries),
                            wallet.value.vaultKeyPath, now).result.Ok?
                && submitted == Ok(r.value.transactionHash) && receipt.Ok?
                && (r.value.status == "success" <==> receipt.value == 1)
                && r.value.from == walletAddress && r.value.to == tokenAddress && r.value.spender == Permit2Address
      ensures wallet.Some? ==>
                var key := Retrieve(vault.crypto, vault.config, vault.records, old(vault.cache.entries),
                                    wallet.value.vaultKeyPath, now).result;
                && (key.Err? ==> r == Err(ApproveFailed + key.error))
                && (key.Ok? && submitted.Err? ==> r == Err(ApproveFailed + submitted.error))
                && (key.Ok? && submitted.Ok? && receipt.Err? ==> r == Err(ApproveFailed + receipt.error))
                && (key.Ok? && submitted.Ok? && receipt.Ok? ==>
                      r == Ok(ApprovalReceipt(submitted.value, ApprovalStatus(receipt.value),
                                              walletAddress, tokenAddress, Permit2Address)))
    {
      if wallet.None? {
        return Err(ApproveFailed + "Wallet not found");
      }
      var privateKey := vault.GetPrivateKey(wallet.value.vaultKeyPath, now);
      if privateKey.Err? {
        return Err(ApproveFailed + privateKey.error);
      }
      if submitted.Err? {
        return Err(ApproveFailed + submitted.error);
      }
      if receipt.Err? {
        return Err(ApproveFailed + receipt.error);
      }
      r := Ok(ApprovalReceipt(submitted.value, ApprovalStatus(receipt.value), walletAddress, tokenAddress, Permit2Address));
    }
  }
}

=== FILE: ttl.dfy ===
/** The in-process time-to-live stores: `CacheService` (shared cache of
    short-lived values) and `TokenStorageService` (refresh-token ledger) are the
    same structure, a `Map<string, {value, expiry?}>` whose expired entries are
    evicted lazily, when a read finds them stale. `Store<V>` models both; the
    clock (`Date.now()`) is the `now` argument, in milliseconds. */
module Ttl {
  import opened Prelude

  /** A stored value with its absolute expiry time in milliseconds, if any. */
  datatype Entry<V> = Entry(value: V, expiry: Option<int>)

  /** The expiry `set` records for an optional time-to-live in seconds: only a
      truthy (present, non-zero) one yields a deadline. */
  function ExpiryFor(seconds: Option<int>, now: int): (r: Option<int>)
    ensures r.Some? <==> Truthy(seconds)
    ensures r.Some? && seconds.value > 0 ==> r.value > now
  {
    if Truthy(seconds) then Some(now + seconds.value * 1000) else None
  }

  /** `item.expiry && item.expiry < Date.now()`: a stored expiry of 0 counts as none. */
  predicate Expired<V>(e: Entry<V>, now: int) {
    Truthy(e.expiry) && e.expiry.value < now
  }

  /** What `get(key)` returns at time `now`. */
  function Lookup<V>(m: map<string, Entry<V>>, key: string, now: int): (r: Option<V>)
    ensures r.Some? ==> key in m && r.value == m[key].value
    ensures key in m && !Truthy(m[key].expiry) ==> r == Some(m[key].value)
  {
    if key in m && !Expired(m[key], now) then Some(m[key].value) else None
  }

  /** The map after `get(key)` at time `now`: a stale entry for `key` is dropped. */
  function AfterGet<V>(m: map<string, Entry<V>>, key: string, now: int): (r: map<string, Entry<V>>)
    ensures forall k | k in r :: k in m && r[k] == m[k]
    ensures forall k | k in m && k != key :: k in r
    ensures Lookup(r, key, now) == Lookup(m, key, now)
  {
    if key in m && Expired(m[key], now) then m - {key} else m
  }

  class Store<V> {
    var entries: map<string, Entry<V>>

    constructor ()
      ensures entries == map[]
    {
      entries := map[];
    }

    /** Serves a live entry; evicts and misses on a stale one. */
    method Get(key: string, now: int) returns (r: Option<V>)
      modifies this
      ensures r == Lookup(old(entries), key, now)
      ensures entries == AfterGet(old(entries), key, now)
      ensures r.Some? <==> key in old(entries) && !Expired(old(entries)[key], now)
      ensures key in entries ==> key in old(entries) && entries[key] == old(entries)[key] && r.Some?
    {
      if key !in entries {
        return None;
      }
      var item := entries[key];
      if Truthy(item.expiry) && item.expiry.value < now {
        entries := entries - {key};
        return None;
      }
      r := Some(item.value);
    }

    /** Last writer wins; an omitted or zero time-to-live never expires. */
    method Set(key: string, value: V, seconds: Option<int>, now: int)
      modifies this
      ensures entries == old(entries)[key := Entry(value, ExpiryFor(seconds, now))]
    {
      var expiry: Option<int> := None;
      if Truthy(seconds) {
        expiry := Some(now + seconds.value * 1000);
      }
      entries := entries[key := Entry(value, expiry)];
    }

    /** Unconditional removal; reports whether the key was there. */
    method Delete(key: string) returns (existed: bool)
      modifies this
      ensures existed <==> key in old(entries)
      ensures entries == old(entries) - {key}
    {
      existed := key in entries;
      entries := entries - {key};
    }
  }

  /** A value stored with a positive time-to-live of `s` seconds at time `t` is
      served up to and including `t + 1000 s` and missed afterwards. */
  lemma LiveUntilDeadline<V>(m: map<string, Entry<V>>, key: string, v: V, s: int, t: nat, now: int)
    requires s > 0
    ensures Lookup(m[key := Entry(v, ExpiryFor(Some(s), t))], key, now)
            == if now <= t + s * 1000 then Some(v) else None
  {
  }

  /** Stored without a (truthy) time-to-live, a value is served at every time. */
  lemma NoDeadlineNeverExpires<V>(m: map<string, Entry<V>>, key: string, v: V, seconds: Option<int>, t: int, now: int)
    requires !Truthy(seconds)
    ensures Lookup(m[key := Entry(v, ExpiryFor(seconds, t))], key, now) == Some(v)
  {
  }

  /** A five-second entry written at t is still there at t+4 s and gone at t+6 s. */
  lemma FiveSecondEntry<V>(m: map<string, Entry<V>>, key: string, v: V, t: nat)
    ensures Lookup(m[key := Entry(v, ExpiryFor(Some(5), t))], key, t + 4000) == Some(v)
    ensures Lookup(m[key := Entry(v, ExpiryFor(Some(5), t))], key, t + 6000) == None
  {
    LiveUntilDeadline(m, key, v, 5, t, t + 4000);
    LiveUntilDeadline(m, key, v, 5, t, t + 6000);
  }

  /** Lazy eviction is unobservable: what any key reads as at `now` or later is
      the same before and after a `get` at `now`, so a stale value is only ever
      seen as a miss. */
  lemma EvictionUnobservable<V>(m: map<string, Entry<V>>, key: string, now: int, other: string, later: int)
    requires now <= later
    ensures Lookup(AfterGet(m, key, now), other, later) == Lookup(m, other, later)
  {
  }

  /** `set` and `delete` on one key leave every other key's reads unchanged. */
  lemma WritesAreLocal<V>(m: map<string, Entry<V>>, key: string, e: Entry<V>, other: string, now: int)
    requires other != key
    ensures Lookup(m[key := e], other, now) == Lookup(m, other, now)
    ensures Lookup(m - {key}, other, now) == Lookup(m, other, now)
    ensures Lookup(m - {key}, key, now) == None
  {
  }
}

=== FILE: validators.dfy ===
/** The form validators of the frontend: password length and strength, and
    the e-mail pattern `^[a-zA-Z0-9._%+-]+@[a-zA-Z0-9.-]+\.[a-zA-Z]{2,}$`,
    written out as character classes over the string. */
module Validators {
  import opened Prelude

  predicate IsLower(c: char) { 'a' <= c <= 'z' }
  predicate IsUpper(c: char) { 'A' <= c <= 'Z' }
  predicate IsDigit(c: char) { '0' <= c <= '9' }
  predicate IsLetter(c: char) { IsLower(c) || IsUpper(c) }
  predicate IsAlphanumeric(c: char) { IsLetter(c) || IsDigit(c) }

  /** `isValidPassword`: at least 8 UTF-16 code units. Every character is one
      or two units, so 8 characters always suffice and 4 are always needed;
      without characters beyond the Basic Multilingual Plane it is exactly 8. */
  predicate IsValidPassword(p: string): (ok: bool)
    ensures |p| >= 8 ==> ok
    ensures ok ==> |p| >= 4
    ensures (forall i | 0 <= i < |p| :: p[i] as int <= 0xFFFF) ==> (ok <==> |p| >= 8)
  {
    Utf16Length(p) >= 8
  }

  predicate HasLower(p: string) { exists i | 0 <= i < |p| :: IsLower(p[i]) }
  predicate HasUpper(p: string) { exists i | 0 <= i < |p| :: IsUpper(p[i]) }
  predicate HasDigit(p: string) { exists i | 0 <= i < |p| :: IsDigit(p[i]) }
  /** `/[^a-zA-Z0-9]/`: any character that is not an ASCII letter or digit. */
  predicate HasSpecial(p: string) { exists i | 0 <= i < |p| :: !IsAlphanumeric(p[i]) }

  function Point(b: bool): nat { if b then 1 else 0 }

  /** How many of the five strength criteria `p` meets. */
  function Criteria(p: string): (n: nat)
    ensures n <= 5
  {
    Point(IsValidPassword(p)) + Point(HasLower(p)) + Point(HasUpper(p)) + Point(HasDigit(p)) + Point(HasSpecial(p))
  }

  /** The strength score: the criteria met, capped at 4. */
  function Strength(p: string): (n: nat)
    ensures n <= 4
    ensures n == 4 <==> Criteria(p) >= 4
  {
    if Criteria(p) < 4 then Criteria(p) else 4
  }

  /** `getPasswordStrength`: one point per criterion met, capped at 4. */
  method GetPasswordStrength(p: string) returns (score: nat)
    ensures score == Strength(p)
    ensures score <= 4
  {
    score := 0;
    if Utf16Length(p) >= 8 {
      score := score + 1;
    }
    if HasLower(p) {
      score := score + 1;
    }
    if HasUpper(p) {
      score := score + 1;
    }
    if HasDigit(p) {
      score := score + 1;
    }
    if HasSpecial(p) {
      score := score + 1;
    }
    if score > 4 {
      score := 4;
    }
  }

  /** The empty password scores 0; one meeting all five criteria scores 4. */
  lemma StrengthExtremes(p: string)
    ensures Strength("") == 0
    ensures IsValidPassword(p) && HasLower(p) && HasUpper(p) && HasDigit(p) && HasSpecial(p) ==> Strength(p) == 4
  {
    assert !HasLower("") && !HasUpper("") && !HasDigit("") && !HasSpecial("");
  }

  /** Every non-empty password meets at least one character criterion, so a
      valid password scores at least 2 and any non-empty one at least 1. */
  lemma StrengthOfNonEmpty(p: string)
    requires p != ""
    ensures Strength(p) >= 1
    ensures IsValidPassword(p) ==> Strength(p) >= 2
  {
    var c := p[0];
    if IsLower(c) {
      assert HasLower(p);
    } else if IsUpper(c) {
      assert HasUpper(p);
    } else if IsDigit(c) {
      assert HasDigit(p);
    } else {
      assert HasSpecial(p);
    }
  }

  predicate IsLocalChar(c: char) { IsAlphanumeric(c) || c == '.' || c == '_' || c == '%' || c == '+' || c == '-' }
  predicate IsDomainChar(c: char) { IsAlphanumeric(c) || c == '.' || c == '-' }

  /** `s` is local part, '@' at `at`, domain, '.' at `dot`, then two or more letters. */
  predicate EmailShape(s: string, at: int, dot: int) {
    && 0 < at && at + 1 < dot && dot + 2 < |s|
    && s[at] == '@' && s[dot] == '.'
    && (forall k | 0 <= k < at :: IsLocalChar(s[k]))
    && (forall k | at < k < dot :: IsDomainChar(s[k]))
    && (forall k | dot < k < |s| :: IsLetter(s[k]))
  }

  /** The language of the pattern: some split of `s` fits it. */
  ghost predicate MatchesEmailPattern(s: string) {
    exists at, dot | 0 <= at < |s| && 0 <= dot < |s| :: EmailShape(s, at, dot)
  }

  /** The first position holding `c`. */
  function FirstIndex(s: string, c: char): (r: Option<nat>)
    ensures r.None? ==> forall k | 0 <= k < |s| :: s[k] != c
    ensures r.Some? ==> r.value < |s| && s[r.value] == c && forall k | 0 <= k < r.value :: s[k] != c
  {
    if s == [] then None
    else if s[0] == c then Some(0)
    else match FirstIndex(s[1..], c)
      case None => None
      case Some(k) => Some(k + 1)
  }

  /** The last position holding `c`. */
  function LastIndex(s: string, c: char): (r: Option<nat>)
    ensures r.None? ==> forall k | 0 <= k < |s| :: s[k] != c
    ensures r.Some? ==> r.value < |s| && s[r.value] == c && forall k | r.value < k < |s| :: s[k] != c
  {
    if s == [] then None
    else if s[|s| - 1] == c then Some(|s| - 1)
    else LastIndex(s[..|s| - 1], c)
  }

  /** `isValidEmail`: the only candidate split is at the first '@' and the
      last '.', since neither part before them nor the letters after the
      dot may contain them. */
  function IsValidEmail(s: string): (ok: bool)
    ensures ok ==> MatchesEmailPattern(s)
  {
    match (FirstIndex(s, '@'), LastIndex(s, '.'))
    case (Some(at), Some(dot)) => EmailShape(s, at, dot)
    case _ => false
  }

  /** `isValidEmail` accepts exactly the strings the pattern matches. */
  lemma IsValidEmailMatchesPattern(s: string)
    ensures IsValidEmail(s) <==> MatchesEmailPattern(s)
  {
    if MatchesEmailPattern(s) {
      var at, dot :| 0 <= at < |s| && 0 <= dot < |s| && EmailShape(s, at, dot);
      var first := FirstIndex(s, '@');
      var last := LastIndex(s, '.');
      assert first == Some(at) by {
        assert forall k | 0 <= k < at :: s[k] != '@' by {
          forall k | 0 <= k < at ensures s[k] != '@' {
            assert IsLocalChar(s[k]);
          }
        }
      }
      assert last == Some(dot) by {
        forall k | dot < k < |s| ensures s[k] != '.' {
          assert IsLetter(s[k]);
        }
      }
    }
  }

  /** An accepted address has exactly one '@' and ends with a '.' followed
      by at least two ASCII letters. */
  lemma AcceptedEmailShape(s: string)
    requires IsValidEmail(s)
    ensures exists at | 0 <= at < |s| :: s[at] == '@' && forall k | 0 <= k < |s| && s[k] == '@' :: k == at
    ensures exists dot | 0 <= dot < |s| - 2 :: s[dot] == '.' && forall k | dot < k < |s| :: IsLetter(s[k])
  {
    var at, dot := FirstIndex(s, '@').value, LastIndex(s, '.').value;
    assert EmailShape(s, at, dot);
    forall k | at < k < |s| ensures s[k] != '@' {
      if k < dot {
        assert IsDomainChar(s[k]);
      } else if k > dot {
        assert IsLetter(s[k]);
      }
    }
  }

  /** A short address is accepted. */
  lemma AcceptedExample()
    ensures IsValidEmail("jo@x.io")
  {
    var s := "jo@x.io";
    assert s[2] == '@' && s[0] != '@' && s[1] != '@';
    assert s[4] == '.' && s[5] != '.' && s[6] != '.';
    assert EmailShape(s, 2, 4);
  }

  /** An address ending in a one-letter top-level domain is refused. */
  lemma RefusedExample()
    ensures !IsValidEmail("jo@x.i")
  {
    var s := "jo@x.i";
    assert s[4] == '.' && s[5] != '.';
  }
}

=== FILE: vault.dfy ===
/** The key vault (`VaultService`): private keys are kept only as ciphertext
    records in an in-memory map keyed by `wallet/<userId>/<uuid>`. A record is
    produced either by the remote key-management service (its `iv` is the
    literal marker "KMS") or by local AES-256-GCM under a key derived with
    scrypt (RFC 7914) from a configured secret (its `iv` is the hex nonce).
    Reads go through the shared TTL cache, which keeps the ciphertext record
    (never the plaintext) for 60 seconds; decryption always dispatches on the
    record's own marker. */
module Vault {
  import opened Prelude
  import opened Encoding
  import opened Ttl

  /** `{ privateKey, iv }` as stored in the vault and, under `key:<path>`, in the cache. */
  datatype KeyRecord = KeyRecord(privateKey: string, iv: string)

  const KmsMarker: string := "KMS"
  const CacheSeconds: int := 60

  const StoreFailed: string := "Failed to securely store private key"
  const RetrieveFailed: string := "Failed to retrieve private key"
  const RotateFailed: string := "Failed to rotate encryption key"

  /** Output of the AEAD cipher: ciphertext and authentication tag. */
  datatype Sealed = Sealed(ciphertext: seq<Byte>, tag: seq<Byte>)

  /** The cryptographic collaborators, as functions:
      - `seal(plaintext, nonce)`: AES-256-GCM under the scrypt-derived key
        (None: the cipher threw);
      - `open(sealed, nonce)`: the matching decryption (None: authentication
        or parameter failure);
      - `kmsDecrypt(blob)`: the remote `Decrypt` of a base64 ciphertext blob
        (None: the call failed or returned no plaintext). */
  datatype Crypto = Crypto(
    seal: (string, seq<Byte>) -> Option<Sealed>,
    open: (Sealed, seq<Byte>) -> Option<string>,
    kmsDecrypt: string -> Option<string>)

  /** The local cipher opens what it sealed under the same nonce. */
  ghost predicate LocalRoundTrip(c: Crypto) {
    forall p, iv :: c.seal(p, iv).Some? ==> c.open(c.seal(p, iv).value, iv) == Some(p)
  }

  /** The remote service's answer to `Encrypt(plaintext)`, when it gave one,
      decrypts back to that plaintext. */
  predicate KmsReplyGenuine(c: Crypto, reply: Option<string>, plaintext: string) {
    reply.Some? ==> c.kmsDecrypt(reply.value) == Some(plaintext)
  }

  /** Whether a remote client exists and whether a master-key id is configured. */
  datatype KmsConfig = KmsConfig(client: bool, keyId: bool)

  predicate RemoteEnabled(cfg: KmsConfig) {
    cfg.client && cfg.keyId
  }

  function KeyPath(userId: string, uuid: string): string {
    "wallet/" + userId + "/" + uuid
  }

  function CacheKey(path: string): string {
    "key:" + path
  }

  lemma CacheKeyInjective(p: string, q: string)
    requires CacheKey(p) == CacheKey(q)
    ensures p == q
  {
    assert p == CacheKey(p)[4..];
  }

  /** `encryptLocal`: `<hex ciphertext>:<hex tag>` with the hex nonce as `iv`.
      A hex nonce has even length, so it is never the remote marker. */
  function EncryptLocal(c: Crypto, plaintext: string, nonce: seq<Byte>): (r: Option<KeyRecord>)
    ensures r.Some? <==> c.seal(plaintext, nonce).Some?
    ensures r.Some? ==> r.value.iv != KmsMarker && |r.value.iv| == 2 * |nonce|
  {
    match c.seal(plaintext, nonce)
    case None => None
    case Some(s) => Some(KeyRecord(Hex(s.ciphertext) + ":" + Hex(s.tag), Hex(nonce)))
  }

  /** `decryptLocal`: split at ':', hex-decode ciphertext, tag and nonce, open.
      Without a ':' the tag is `undefined` and `Buffer.from` throws; an odd
      number of ciphertext digits makes `decipher.update(_, "hex")` throw,
      whereas `Buffer.from` decodes tag and nonce leniently. */
  function DecryptLocal(c: Crypto, encrypted: string, iv: string): (r: Option<string>)
    ensures ':' !in encrypted ==> r.None?
    ensures |Split(encrypted, ':')[0]| % 2 == 1 ==> r.None?
  {
    var parts := Split(encrypted, ':');
    if |parts| < 2 || |parts[0]| % 2 == 1 then None
    else c.open(Sealed(DecodeHex(parts[0]), DecodeHex(parts[1])), DecodeHex(iv))
  }

  /** Local decryption inverts local encryption. */
  lemma LocalRecordOpens(c: Crypto, plaintext: string, nonce: seq<Byte>)
    requires LocalRoundTrip(c)
    requires EncryptLocal(c, plaintext, nonce).Some?
    ensures DecryptLocal(c, EncryptLocal(c, plaintext, nonce).value.privateKey,
                         EncryptLocal(c, plaintext, nonce).value.iv) == Some(plaintext)
  {
    var s := c.seal(plaintext, nonce).value;
    var ct, tag := Hex(s.ciphertext), Hex(s.tag);
    assert ':' !in ct && ':' !in tag;
    SplitAtFirst(ct, tag, ':');
    SplitNoSeparator(tag, ':');
    assert Split(ct + ":" + tag, ':') == [ct, tag];
    assert |ct| % 2 == 0 by {
      assert |ct| == 2 * |s.ciphertext|;
    }
    DecodeHexRoundTrip(s.ciphertext);
    DecodeHexRoundTrip(s.tag);
    DecodeHexRoundTrip(nonce);
  }

  /** Decryption of a record, chosen by the record's marker and not by which
      backend is configured now; `kmsUsable` is the configuration test the
      calling path applies. */
  function DecryptRecord(c: Crypto, rec: KeyRecord, kmsUsable: bool): (r: Option<string>)
    ensures rec.iv == KmsMarker && !kmsUsable ==> r.None?
    ensures rec.iv != KmsMarker ==> r == DecryptLocal(c, rec.privateKey, rec.iv)
  {
    if rec.iv == KmsMarker then
      if kmsUsable then c.kmsDecrypt(rec.privateKey) else None
    else DecryptLocal(c, rec.privateKey, rec.iv)
  }

  /** The record `storePrivateKey` writes: the remote ciphertext when the remote
      backend is configured and answered, otherwise (never configured, threw, or
      no blob) the local encryption; nothing when local encryption throws too. */
  function SealRecord(c: Crypto, cfg: KmsConfig, plaintext: string, nonce: seq<Byte>, kmsReply: Option<string>): (r: Option<KeyRecord>)
    ensures (r.Some? && r.value.iv == KmsMarker) <==> (RemoteEnabled(cfg) && kmsReply.Some?)
    ensures r.None? <==> !(RemoteEnabled(cfg) && kmsReply.Some?) && c.seal(plaintext, nonce).None?
  {
    if RemoteEnabled(cfg) && kmsReply.Some? then Some(KeyRecord(kmsReply.value, KmsMarker))
    else EncryptLocal(c, plaintext, nonce)
  }

  /** Whatever backend produced it, a fresh record decrypts to the plaintext. */
  lemma SealedRecordOpens(c: Crypto, cfg: KmsConfig, plaintext: string, nonce: seq<Byte>, kmsReply: Option<string>)
    requires LocalRoundTrip(c) && KmsReplyGenuine(c, kmsReply, plaintext)
    requires SealRecord(c, cfg, plaintext, nonce, kmsReply).Some?
    ensures DecryptRecord(c, SealRecord(c, cfg, plaintext, nonce, kmsReply).value, RemoteEnabled(cfg)) == Some(plaintext)
  {
    if !(RemoteEnabled(cfg) && kmsReply.Some?) {
      LocalRecordOpens(c, plaintext, nonce);
    }
  }

  function Recovered(d: Option<string>): Result<string> {
    if d.Some? then Ok(d.value) else Err(RetrieveFailed)
  }

  /** The outcome of `getPrivateKey` and the cache it leaves behind. */
  datatype Retrieval = Retrieval(result: Result<string>, cache: map<string, Entry<KeyRecord>>)

  /** `getPrivateKey(path)` at time `now`: a live cache entry is decrypted
      (the remote path checks only that a client exists); otherwise the vault
      record is decrypted (the remote path needs the key id too) and, on
      success, its ciphertext record is cached for 60 seconds. */
  function Retrieve(c: Crypto, cfg: KmsConfig, records: map<string, KeyRecord>,
                    cache: map<string, Entry<KeyRecord>>, path: string, now: int): (r: Retrieval)
    ensures r.result.Err? ==> r.result == Err(RetrieveFailed)
    ensures forall k | k != CacheKey(path) :: (k in r.cache <==> k in cache)
    ensures forall k | k != CacheKey(path) && k in cache :: r.cache[k] == cache[k]
    ensures CacheKey(path) in r.cache ==>
              || (CacheKey(path) in cache && r.cache[CacheKey(path)] == cache[CacheKey(path)])
              || (path in records && r.cache[CacheKey(path)].value == records[path])
  {
    var key := CacheKey(path);
    var swept := AfterGet(cache, key, now);
    match Lookup(cache, key, now)
    case Some(rec) => Retrieval(Recovered(DecryptRecord(c, rec, cfg.client)), swept)
    case None =>
      if path !in records then Retrieval(Err(RetrieveFailed), swept)
      else
        match DecryptRecord(c, records[path], RemoteEnabled(cfg))
        case None => Retrieval(Err(RetrieveFailed), swept)
        case Some(p) => Retrieval(Ok(p), swept[key := Entry(records[path], ExpiryFor(Some(CacheSeconds), now))])
  }

  /** The vault's standing invariant: the cache holds, under `key:<path>`,
      exactly the ciphertext record the vault holds under `path`; and remote
      records exist only where the remote backend is configured. */
  ghost predicate Coherent(cfg: KmsConfig, records: map<string, KeyRecord>, cache: map<string, Entry<KeyRecord>>) {
    && (forall p :: CacheKey(p) in cache ==> p in records && cache[CacheKey(p)].value == records[p])
    && (forall p :: p in records && records[p].iv == KmsMarker ==> RemoteEnabled(cfg))
  }

  /** Under the invariant the cache is transparent: a read returns what
      decrypting the vault record returns, or fails when there is none. */
  lemma RetrieveReadsVault(c: Crypto, cfg: KmsConfig, records: map<string, KeyRecord>,
                           cache: map<string, Entry<KeyRecord>>, path: string, now: int)
    requires Coherent(cfg, records, cache)
    ensures Retrieve(c, cfg, records, cache, path, now).result
            == if path in records then Recovered(DecryptRecord(c, records[path], RemoteEnabled(cfg)))
               else Err(RetrieveFailed)
  {
    var key := CacheKey(path);
    if Lookup(cache, key, now).Some? {
      assert key in cache;
      assert path in records && cache[key].value == records[path];
      if records[path].iv == KmsMarker {
        assert RemoteEnabled(cfg);
      }
    }
  }

  /** Reads keep the invariant: only the vault record is ever cached. */
  lemma RetrieveKeepsCoherent(c: Crypto, cfg: KmsConfig, records: map<string, KeyRecord>,
                              cache: map<string, Entry<KeyRecord>>, path: string, now: int)
    requires Coherent(cfg, records, cache)
    ensures Coherent(cfg, records, Retrieve(c, cfg, records, cache, path, now).cache)
  {
    var out := Retrieve(c, cfg, records, cache, path, now).cache;
    forall p | CacheKey(p) in out
      ensures p in records && out[CacheKey(p)].value == records[p]
    {
      if CacheKey(p) == CacheKey(path) {
        CacheKeyInjective(p, path);
      }
    }
  }

  /** Storing under a fresh path keeps the invariant. */
  lemma StoreKeepsCoherent(c: Crypto, cfg: KmsConfig, records: map<string, KeyRecord>,
                           cache: map<string, Entry<KeyRecord>>, path: string,
                           plaintext: string, nonce: seq<Byte>, kmsReply: Option<string>)
    requires Coherent(cfg, records, cache) && path !in records
    requires SealRecord(c, cfg, plaintext, nonce, kmsReply).Some?
    ensures Coherent(cfg, records[path := SealRecord(c, cfg, plaintext, nonce, kmsReply).value], cache)
  {
    var rec := SealRecord(c, cfg, plaintext, nonce, kmsReply).value;
    forall p | CacheKey(p) in cache
      ensures p in records[path := rec] && cache[CacheKey(p)].value == records[path := rec][p]
    {
      assert p in records;
    }
  }

  /** Round trip: a key stored under a fresh path reads back unchanged, at any time. */
  lemma StoreThenRetrieve(c: Crypto, cfg: KmsConfig, records: map<string, KeyRecord>,
                          cache: map<string, Entry<KeyRecord>>, userId: string, uuid: string,
                          plaintext: string, nonce: seq<Byte>, kmsReply: Option<string>, now: int)
    requires LocalRoundTrip(c) && KmsReplyGenuine(c, kmsReply, plaintext)
    requires Coherent(cfg, records, cache) && KeyPath(userId, uuid) !in records
    requires SealRecord(c, cfg, plaintext, nonce, kmsReply).Some?
    ensures Retrieve(c, cfg, records[KeyPath(userId, uuid) := SealRecord(c, cfg, plaintext, nonce, kmsReply).value],
                     cache, KeyPath(userId, uuid), now).result == Ok(plaintext)
  {
    var path := KeyPath(userId, uuid);
    var rec := SealRecord(c, cfg, plaintext, nonce, kmsReply).value;
    StoreKeepsCoherent(c, cfg, records, cache, path, plaintext, nonce, kmsReply);
    RetrieveReadsVault(c, cfg, records[path := rec], cache, path, now);
    SealedRecordOpens(c, cfg, plaintext, nonce, kmsReply);
  }

  /** A path in neither the cache nor the vault fails with the generic error. */
  lemma RetrieveUnknownPath(c: Crypto, cfg: KmsConfig, records: map<string, KeyRecord>,
                            cache: map<string, Entry<KeyRecord>>, path: string, now: int)
    requires path !in records && Lookup(cache, CacheKey(path), now).None?
    ensures Retrieve(c, cfg, records, cache, path, now) == Retrieval(Err(RetrieveFailed), AfterGet(cache, CacheKey(path), now))
  {
  }

  /** A remote record read while the remote backend is not configured fails;
      local decryption is never attempted on it. */
  lemma RemoteRecordNeedsRemote(c: Crypto, cfg: KmsConfig, records: map<string, KeyRecord>,
                                cache: map<string, Entry<KeyRecord>>, path: string, now: int)
    requires path in records && records[path].iv == KmsMarker && !RemoteEnabled(cfg)
    requires Lookup(cache, CacheKey(path), now).None?
    ensures Retrieve(c, cfg, records, cache, path, now).result == Err(RetrieveFailed)
  {
  }

  /** After a vault read, the cache holds the ciphertext record, for 60 seconds. */
  lemma VaultReadCachesCiphertext(c: Crypto, cfg: KmsConfig, records: map<string, KeyRecord>,
                                  cache: map<string, Entry<KeyRecord>>, path: string, now: int)
    requires Lookup(cache, CacheKey(path), now).None?
    requires Retrieve(c, cfg, records, cache, path, now).result.Ok?
    ensures path in records
    ensures Retrieve(c, cfg, records, cache, path, now).cache
            == AfterGet(cache, CacheKey(path), now)[CacheKey(path) := Entry(records[path], Some(now + 60000))]
  {
  }

  /** Within the 60 seconds a second read is served from the cache entry and
      returns the same key (it decrypts again: the entry is ciphertext). */
  lemma SecondReadFromCache(c: Crypto, cfg: KmsConfig, records: map<string, KeyRecord>,
                            cache: map<string, Entry<KeyRecord>>, path: string, now: int, later: int)
    requires Coherent(cfg, records, cache)
    requires Lookup(cache, CacheKey(path), now).None?
    requires Retrieve(c, cfg, records, cache, path, now).result.Ok?
    requires now <= later <= now + 60000
    ensures Lookup(Retrieve(c, cfg, records, cache, path, now).cache, CacheKey(path), later) == Some(records[path])
    ensures Retrieve(c, cfg, records, Retrieve(c, cfg, records, cache, path, now).cache, path, later).result
            == Retrieve(c, cfg, records, cache, path, now).result
  {
    var first := Retrieve(c, cfg, records, cache, path, now);
    RetrieveKeepsCoherent(c, cfg, records, cache, path, now);
    RetrieveReadsVault(c, cfg, records, cache, path, now);
    RetrieveReadsVault(c, cfg, records, first.cache, path, later);
  }

  /** The outcome of `rotateKey` and the vault and cache it leaves behind. */
  datatype Rotation = Rotation(result: Result<string>, records: map<string, KeyRecord>, cache: map<string, Entry<KeyRecord>>)

  /** `rotateKey(path)`: read the key, take the user id from the second
      '/'-separated segment, store it afresh, and only then drop the old
      record and its cache entry. */
  function Rotate(c: Crypto, cfg: KmsConfig, records: map<string, KeyRecord>,
                  cache: map<string, Entry<KeyRecord>>, path: string, now: int,
                  uuid: string, nonce: seq<Byte>, kmsReply: Option<string>): (r: Rotation)
    ensures r.result.Err? ==> r.result == Err(RotateFailed) && r.records == records
    ensures r.result.Ok? ==> path !in r.records && CacheKey(path) !in r.cache
    ensures r.result.Ok? && r.result.value != path ==> r.result.value in r.records
    ensures forall p | p in records && p != path :: p in r.records
  {
    var got := Retrieve(c, cfg, records, cache, path, now);
    var parts := Split(path, '/');
    if got.result.Err? || |parts| < 2 then Rotation(Err(RotateFailed), records, got.cache)
    else
      var newPath := KeyPath(parts[1], uuid);
      match SealRecord(c, cfg, got.result.value, nonce, kmsReply)
      case None => Rotation(Err(RotateFailed), records, got.cache)
      case Some(rec) => Rotation(Ok(newPath), records[newPath := rec] - {path}, got.cache - {CacheKey(path)})
  }

  /** A failed rotation leaves every vault record in place. */
  lemma RotateFailureKeepsRecords(c: Crypto, cfg: KmsConfig, records: map<string, KeyRecord>,
                                  cache: map<string, Entry<KeyRecord>>, path: string, now: int,
                                  uuid: string, nonce: seq<Byte>, kmsReply: Option<string>)
    requires Rotate(c, cfg, records, cache, path, now, uuid, nonce, kmsReply).result.Err?
    ensures Rotate(c, cfg, records, cache, path, now, uuid, nonce, kmsReply).records == records
  {
  }

  /** The paths the vault issues split back into "wallet", the user id and the uuid. */
  lemma {:induction false} KeyPathSegments(userId: string, uuid: string)
    requires '/' !in userId && '/' !in uuid
    ensures Split(KeyPath(userId, uuid), '/') == ["wallet", userId, uuid]
  {
    assert KeyPath(userId, uuid) == "wallet" + ['/'] + (userId + ['/'] + uuid);
    SplitAtFirst("wallet", userId + ['/'] + uuid, '/');
    SplitAtFirst(userId, uuid, '/');
    SplitNoSeparator(uuid, '/');
  }

  /** Rotation succeeds exactly when the key reads, the path has two segments
      and the new record seals; then the key moves to a new path under the same
      user and the old path is gone from vault and cache. */
  lemma RotateMovesKey(c: Crypto, cfg: KmsConfig, records: map<string, KeyRecord>,
                       cache: map<string, Entry<KeyRecord>>, userId: string, oldUuid: string, now: int,
                       uuid: string, nonce: seq<Byte>, kmsReply: Option<string>)
    requires '/' !in userId && '/' !in oldUuid
    requires Retrieve(c, cfg, records, cache, KeyPath(userId, oldUuid), now).result.Ok?
    requires SealRecord(c, cfg, Retrieve(c, cfg, records, cache, KeyPath(userId, oldUuid), now).result.value, nonce, kmsReply).Some?
    ensures Rotate(c, cfg, records, cache, KeyPath(userId, oldUuid), now, uuid, nonce, kmsReply).result == Ok(KeyPath(userId, uuid))
    ensures KeyPath(userId, oldUuid) !in Rotate(c, cfg, records, cache, KeyPath(userId, oldUuid), now, uuid, nonce, kmsReply).records
    ensures CacheKey(KeyPath(userId, oldUuid)) !in Rotate(c, cfg, records, cache, KeyPath(userId, oldUuid), now, uuid, nonce, kmsReply).cache
  {
    KeyPathSegments(userId, oldUuid);
  }

  /** Dropping a path from the vault together with its cache entry keeps the invariant. */
  lemma DropKeepsCoherent(cfg: KmsConfig, records: map<string, KeyRecord>,
                          cache: map<string, Entry<KeyRecord>>, path: string)
    requires Coherent(cfg, records, cache)
    ensures Coherent(cfg, records - {path}, cache - {CacheKey(path)})
  {
    forall p | CacheKey(p) in cache - {CacheKey(path)}
      ensures p in records - {path} && (cache - {CacheKey(path)})[CacheKey(p)].value == (records - {path})[p]
    {
      assert p != path;
    }
  }

  /** Rotation to a fresh path keeps the invariant. */
  lemma RotateKeepsCoherent(c: Crypto, cfg: KmsConfig, records: map<string, KeyRecord>,
                            cache: map<string, Entry<KeyRecord>>, path: string, now: int,
                            uuid: string, nonce: seq<Byte>, kmsReply: Option<string>)
    requires Coherent(cfg, records, cache)
    requires Rotate(c, cfg, records, cache, path, now, uuid, nonce, kmsReply).result.Ok?
    requires Rotate(c, cfg, records, cache, path, now, uuid, nonce, kmsReply).result.value !in records
    ensures Coherent(cfg, Rotate(c, cfg, records, cache, path, now, uuid, nonce, kmsReply).records,
                     Rotate(c, cfg, records, cache, path, now, uuid, nonce, kmsReply).cache)
  {
    var got := Retrieve(c, cfg, records, cache, path, now);
    var rot := Rotate(c, cfg, records, cache, path, now, uuid, nonce, kmsReply);
    var newPath := rot.result.value;
    RetrieveKeepsCoherent(c, cfg, records, cache, path, now);
    StoreKeepsCoherent(c, cfg, records, got.cache, newPath, got.result.value, nonce, kmsReply);
    DropKeepsCoherent(cfg, records[newPath := SealRecord(c, cfg, got.result.value, nonce, kmsReply).value], got.cache, path);
  }

  /** After rotating to a fresh path: the invariant still holds, the new path
      reads back the old key, and the old path no longer reads. */
  lemma RotateRoundTrip(c: Crypto, cfg: KmsConfig, records: map<string, KeyRecord>,
                        cache: map<string, Entry<KeyRecord>>, path: string, now: int,
                        uuid: string, nonce: seq<Byte>, kmsReply: Option<string>, later: int)
    requires LocalRoundTrip(c) && Coherent(cfg, records, cache)
    requires Retrieve(c, cfg, records, cache, path, now).result.Ok?
    requires KmsReplyGenuine(c, kmsReply, Retrieve(c, cfg, records, cache, path, now).result.value)
    requires Rotate(c, cfg, records, cache, path, now, uuid, nonce, kmsReply).result.Ok?
    requires Rotate(c, cfg, records, cache, path, now, uuid, nonce, kmsReply).result.value !in records
    ensures Coherent(cfg, Rotate(c, cfg, records, cache, path, now, uuid, nonce, kmsReply).records,
                     Rotate(c, cfg, records, cache, path, now, uuid, nonce, kmsReply).cache)
    ensures Retrieve(c, cfg, Rotate(c, cfg, records, cache, path, now, uuid, nonce, kmsReply).records,
                     Rotate(c, cfg, records, cache, path, now, uuid, nonce, kmsReply).cache,
                     Rotate(c, cfg, records, cache, path, now, uuid, nonce, kmsReply).result.value, later).result
            == Retrieve(c, cfg, records, cache, path, now).result
    ensures Retrieve(c, cfg, Rotate(c, cfg, records, cache, path, now, uuid, nonce, kmsReply).records,
                     Rotate(c, cfg, records, cache, path, now, uuid, nonce, kmsReply).cache, path, later).result
            == Err(RetrieveFailed)
  {
    var got := Retrieve(c, cfg, records, cache, path, now);
    var plaintext := got.result.value;
    var rot := Rotate(c, cfg, records, cache, path, now, uuid, nonce, kmsReply);
    var newPath := rot.result.value;
    RotateKeepsCoherent(c, cfg, records, cache, path, now, uuid, nonce, kmsReply);
    RetrieveReadsVault(c, cfg, records, cache, path, now);
    assert path in records;
    assert rot.records == records[newPath := SealRecord(c, cfg, plaintext, nonce, kmsReply).value] - {path};
    RetrieveReadsVault(c, cfg, rot.records, rot.cache, newPath, later);
    RetrieveReadsVault(c, cfg, rot.records, rot.cache, path, later);
    SealedRecordOpens(c, cfg, plaintext, nonce, kmsReply);
  }

  class VaultService {
    /** `memoryVault`: path to ciphertext record. */
    var records: map<string, KeyRecord>
    /** The shared cache, holding ciphertext records under `key:<path>`. */
    const cache: Store<KeyRecord>
    const crypto: Crypto
    const config: KmsConfig

    ghost predicate Valid()
      reads this, cache
    {
      Coherent(config, records, cache.entries)
    }

    constructor (crypto: Crypto, config: KmsConfig)
      ensures Valid() && fresh(cache)
      ensures records == map[] && cache.entries == map[]
      ensures this.crypto == crypto && this.config == config
    {
      records := map[];
      cache := new Store<KeyRecord>();
      this.crypto := crypto;
      this.config := config;
    }

    /** `storePrivateKey`: encrypt, write one record under a new path, return the path. */
    method StorePrivateKey(userId: string, privateKey: string, uuid: string, nonce: seq<Byte>, kmsReply: Option<string>)
      returns (r: Result<string>)
      modifies this
      ensures match SealRecord(crypto, config, privateKey, nonce, kmsReply)
              case None => r == Err(StoreFailed) && records == old(records)
              case Some(rec) => r == Ok(KeyPath(userId, uuid)) && records == old(records)[KeyPath(userId, uuid) := rec]
      ensures old(Valid()) && KeyPath(userId, uuid) !in old(records) ==> Valid()
    {
      var path := KeyPath(userId, uuid);
      if RemoteEnabled(config) && kmsReply.Some? {
        records := records[path := KeyRecord(kmsReply.value, KmsMarker)];
        return Ok(path);
      }
      var local := EncryptLocal(crypto, privateKey, nonce);
      if local.None? {
        return Err(StoreFailed);
      }
      records := records[path := local.value];
      r := Ok(path);
      if old(Valid()) && path !in old(records) {
        StoreKeepsCoherent(crypto, config, old(records), cache.entries, path, privateKey, nonce, kmsReply);
      }
    }

    /** `getPrivateKey`: cache first, then the vault; caches the ciphertext record. */
    method GetPrivateKey(path: string, now: int) returns (r: Result<string>)
      modifies cache
      ensures Retrieval(r, cache.entries) == Retrieve(crypto, config, records, old(cache.entries), path, now)
      ensures old(Valid()) ==> Valid()
    {
      var key := CacheKey(path);
      var cached := cache.Get(key, now);
      if cached.Some? {
        r := Recovered(DecryptRecord(crypto, cached.value, config.client));
      } else if path !in records {
        r := Err(RetrieveFailed);
      } else {
        var rec := records[path];
        var plain := DecryptRecord(crypto, rec, RemoteEnabled(config));
        if plain.None? {
          r := Err(RetrieveFailed);
        } else {
          cache.Set(key, rec, Some(CacheSeconds), now);
          r := Ok(plain.value);
        }
      }
      if old(Valid()) {
        RetrieveKeepsCoherent(crypto, config, records, old(cache.entries), path, now);
      }
    }

    /** `rotateKey`: re-store the key under a new path, then drop the old one. */
    method RotateKey(path: string, now: int, uuid: string, nonce: seq<Byte>, kmsReply: Option<string>)
      returns (r: Result<string>)
      modifies this, cache
      ensures Rotation(r, records, cache.entries)
              == Rotate(crypto, config, old(records), old(cache.entries), path, now, uuid, nonce, kmsReply)
      ensures old(Valid()) && (r.Ok? ==> r.value !in old(records)) ==> Valid()
    {
      var got := GetPrivateKey(path, now);
      if got.Err? {
        return Err(RotateFailed);
      }
      var parts := Split(path, '/');
      if |parts| < 2 {
        return Err(RotateFailed);
      }
      var stored := StorePrivateKey(parts[1], got.value, uuid, nonce, kmsReply);
      if stored.Err? {
        return Err(RotateFailed);
      }
      records := records - {path};
      var _ := cache.Delete(CacheKey(path));
      r := Ok(stored.value);
      if old(Valid()) && r.value !in old(records) {
        RotateKeepsCoherent(crypto, config, old(records), old(cache.entries), path, now, uuid, nonce, kmsReply);
      }
    }
  }
}

=== FILE: wallet.dfy ===
/** Gas estimation and transfer construction (`WalletService`). Fee values are
    `BigInt`s: integers with truncating division. The chain node's answers
    (raw gas estimate, fee data, the hash it assigns on submission) are
    arguments. */
module Wallet {
  import opened Prelude
  import opened Vault

  datatype Speed = Slow | Standard | Fast

  function Rank(s: Speed): nat {
    match s
    case Slow => 0
    case Standard => 1
    case Fast => 2
  }

  /** Percentage applied to the raw gas estimate. */
  function SafetyMargin(s: Speed): int {
    match s
    case Slow => 110
    case Standard => 120
    case Fast => 140
  }

  /** Percentage applied to the node-reported fee values. */
  function SpeedMultiplier(s: Speed): int {
    match s
    case Slow => 80
    case Standard => 100
    case Fast => 130
  }

  /** `(x * BigInt(percent)) / BigInt(100)`. */
  function Scale(x: int, percent: int): int {
    TruncDiv(x * percent, 100)
  }

  /** `provider.getFeeData()`: every field may be null. */
  datatype FeeData = FeeData(gasPrice: Option<int>, maxFeePerGas: Option<int>, maxPriorityFeePerGas: Option<int>)

  /** EIP-1559 fields are used only when both are truthy (a zero counts as absent). */
  predicate SupportsEip1559(f: FeeData) {
    Truthy(f.maxFeePerGas) && Truthy(f.maxPriorityFeePerGas)
  }

  predicate NonNegative(f: FeeData) {
    && (f.gasPrice.Some? ==> f.gasPrice.value >= 0)
    && (f.maxFeePerGas.Some? ==> f.maxFeePerGas.value >= 0)
    && (f.maxPriorityFeePerGas.Some? ==> f.maxPriorityFeePerGas.value >= 0)
  }

  /** The estimator's answer; `estimatedFee` is in wei. */
  datatype GasEstimation = GasEstimation(
    gasEstimate: int,
    gasPrice: int,
    maxFeePerGas: Option<int>,
    maxPriorityFeePerGas: Option<int>,
    estimatedFee: int,
    supportsEip1559: bool)

  const EstimateFailed: string := "Failed to estimate gas: "

  /** `estimateGasForTransfer`. `raw` is the node's estimate for the exact
      call (None: the call failed or would revert). A null `gasPrice` makes
      the `BigInt` product throw, in both fee models. */
  function EstimateGasForTransfer(raw: Option<int>, fee: FeeData, speed: Speed): (r: Result<GasEstimation>)
    ensures r.Ok? <==> raw.Some? && fee.gasPrice.Some?
    ensures r.Err? ==> r.error == EstimateFailed
    ensures r.Ok? && r.value.supportsEip1559 ==>
              r.value.maxFeePerGas.Some? && r.value.estimatedFee == r.value.gasEstimate * r.value.maxFeePerGas.value
    ensures r.Ok? && !r.value.supportsEip1559 ==> r.value.estimatedFee == r.value.gasEstimate * r.value.gasPrice
  {
    if raw.None? || fee.gasPrice.None? then Err(EstimateFailed)
    else
      var gasLimit := Scale(raw.value, SafetyMargin(speed));
      var gasPrice := Scale(fee.gasPrice.value, SpeedMultiplier(speed));
      if SupportsEip1559(fee) then
        var maxFee := Scale(fee.maxFeePerGas.value, SpeedMultiplier(speed));
        var priority := Scale(fee.maxPriorityFeePerGas.value, SpeedMultiplier(speed));
        Ok(GasEstimation(gasLimit, gasPrice, Some(maxFee), Some(priority), gasLimit * maxFee, true))
      else
        Ok(GasEstimation(gasLimit, gasPrice, None, None, gasLimit * gasPrice, false))
  }

  /** The fee model is EIP-1559 exactly when both node fields are truthy; the
      fee is the gas limit times the max fee there, times the gas price
      otherwise, and the legacy answer carries no EIP-1559 fields. The gas
      limit is the raw estimate with the tier's margin. */
  lemma FeeModel(raw: Option<int>, fee: FeeData, speed: Speed)
    ensures EstimateGasForTransfer(raw, fee, speed).Ok? <==> raw.Some? && fee.gasPrice.Some?
    ensures match EstimateGasForTransfer(raw, fee, speed)
            case Err(_) => true
            case Ok(e) =>
              && e.gasEstimate == Scale(raw.value, SafetyMargin(speed))
              && e.supportsEip1559 == SupportsEip1559(fee)
              && (e.supportsEip1559 ==>
                    && e.maxFeePerGas.Some? && e.maxPriorityFeePerGas.Some?
                    && e.estimatedFee == e.gasEstimate * e.maxFeePerGas.value)
              && (!e.supportsEip1559 ==>
                    && e.maxFeePerGas.None? && e.maxPriorityFeePerGas.None?
                    && e.estimatedFee == e.gasEstimate * e.gasPrice)
  {
  }

  /** On the standard tier the fee fields are the node's own values. */
  lemma StandardTierUsesNodeFees(raw: Option<int>, fee: FeeData)
    requires NonNegative(fee)
    requires EstimateGasForTransfer(raw, fee, Standard).Ok?
    ensures EstimateGasForTransfer(raw, fee, Standard).value.gasPrice == fee.gasPrice.value
    ensures SupportsEip1559(fee) ==>
              && EstimateGasForTransfer(raw, fee, Standard).value.maxFeePerGas == fee.maxFeePerGas
              && EstimateGasForTransfer(raw, fee, Standard).value.maxPriorityFeePerGas == fee.maxPriorityFeePerGas
  {
  }

  /** On an EIP-1559 network the fast tier bids 130% of the node's priority fee. */
  lemma FastTierPriority(raw: Option<int>, fee: FeeData)
    requires NonNegative(fee) && SupportsEip1559(fee)
    requires EstimateGasForTransfer(raw, fee, Fast).Ok?
    ensures EstimateGasForTransfer(raw, fee, Fast).value.maxPriorityFeePerGas
            == Some(fee.maxPriorityFeePerGas.value * 130 / 100)
  {
  }

  /** Each tier's percentages, written out: slow takes 110% of the raw
      estimate and 80% of every node fee, standard 120% and 100%, fast 140%
      and 130%, each truncated. */
  lemma TierPercentages(raw: Option<int>, fee: FeeData, speed: Speed)
    requires raw.Some? ==> raw.value >= 0
    requires NonNegative(fee)
    requires EstimateGasForTransfer(raw, fee, speed).Ok?
    ensures var e := EstimateGasForTransfer(raw, fee, speed).value;
            var (margin, multiplier) := match speed
              case Slow => (110, 80)
              case Standard => (120, 100)
              case Fast => (140, 130);
            && e.gasEstimate == raw.value * margin / 100
            && e.gasPrice == fee.gasPrice.value * multiplier / 100
            && (SupportsEip1559(fee) ==>
                  && e.maxFeePerGas == Some(fee.maxFeePerGas.value * multiplier / 100)
                  && e.maxPriorityFeePerGas == Some(fee.maxPriorityFeePerGas.value * multiplier / 100))
  {
  }

  lemma ScaleMonotone(x: int, p: int, q: int)
    requires x >= 0 && 0 <= p <= q
    ensures 0 <= Scale(x, p) <= Scale(x, q)
  {
    assert x * p <= x * q by {
      assert x * q - x * p == x * (q - p);
    }
  }

  lemma ProductMonotone(a: int, b: int, c: int, d: int)
    requires 0 <= a <= c && 0 <= b <= d
    ensures a * b <= c * d
  {
    assert a * b <= c * b by {
      assert c * b - a * b == (c - a) * b;
    }
    assert c * b <= c * d by {
      assert c * d - c * b == c * (d - b);
    }
  }

  /** For one raw estimate and one set of node fees, a faster tier never asks
      for less: gas limit, every fee field and the total fee are ordered
      slow <= standard <= fast. */
  lemma TierOrdering(raw: Option<int>, fee: FeeData, a: Speed, b: Speed)
    requires Rank(a) <= Rank(b)
    requires raw.Some? ==> raw.value >= 0
    requires NonNegative(fee)
    requires EstimateGasForTransfer(raw, fee, a).Ok?
    ensures EstimateGasForTransfer(raw, fee, b).Ok?
    ensures var x, y := EstimateGasForTransfer(raw, fee, a).value, EstimateGasForTransfer(raw, fee, b).value;
            && x.gasEstimate <= y.gasEstimate
            && x.gasPrice <= y.gasPrice
            && x.estimatedFee <= y.estimatedFee
            && x.supportsEip1559 == y.supportsEip1559
            && (x.supportsEip1559 ==>
                  && x.maxFeePerGas.value <= y.maxFeePerGas.value
                  && x.maxPriorityFeePerGas.value <= y.maxPriorityFeePerGas.value)
  {
    var x, y := EstimateGasForTransfer(raw, fee, a).value, EstimateGasForTransfer(raw, fee, b).value;
    assert SafetyMargin(a) <= SafetyMargin(b) && SpeedMultiplier(a) <= SpeedMultiplier(b);
    ScaleMonotone(raw.value, SafetyMargin(a), SafetyMargin(b));
    ScaleMonotone(fee.gasPrice.value, SpeedMultiplier(a), SpeedMultiplier(b));
    if SupportsEip1559(fee) {
      ScaleMonotone(fee.maxFeePerGas.value, SpeedMultiplier(a), SpeedMultiplier(b));
      ScaleMonotone(fee.maxPriorityFeePerGas.value, SpeedMultiplier(a), SpeedMultiplier(b));
      ProductMonotone(x.gasEstimate, x.maxFeePerGas.value, y.gasEstimate, y.maxFeePerGas.value);
    } else {
      ProductMonotone(x.gasEstimate, x.gasPrice, y.gasEstimate, y.gasPrice);
    }
  }

  /** One key of the caller's `gasOptions` object: not there, there but
      undefined or empty (falsy), or a numeric string `BigInt` parses to `amount`. */
  datatype GasOption = Absent | Blank | Given(amount: int)

  datatype GasOptions = GasOptions(
    gasLimit: GasOption,
    gasPrice: GasOption,
    maxFeePerGas: GasOption,
    maxPriorityFeePerGas: GasOption)

  /** `Object.keys(gasOptions).length === 0`. */
  predicate NoKeys(o: GasOptions) {
    o.gasLimit.Absent? && o.gasPrice.Absent? && o.maxFeePerGas.Absent? && o.maxPriorityFeePerGas.Absent?
  }

  /** `field ? BigInt(field) : undefined`. */
  function Chosen(o: GasOption): Option<int> {
    if o.Given? then Some(o.amount) else None
  }

  /** The gas values `sendToken` settles on before building the transaction. */
  datatype GasChoice = GasChoice(
    gasLimit: Option<int>,
    gasPrice: Option<int>,
    maxFeePerGas: Option<int>,
    maxPriorityFeePerGas: Option<int>)

  /** Gas selection in `sendToken`: without options (absent or with no keys)
      the standard-tier estimate supplies the gas limit and either both
      EIP-1559 fields or the gas price, never both; otherwise every field is
      the caller's own, taken independently and never mixed with an estimate. */
  function SelectGas(options: Option<GasOptions>, raw: Option<int>, fee: FeeData): (r: Result<GasChoice>)
    ensures options.None? || NoKeys(options.value) ==>
              match EstimateGasForTransfer(raw, fee, Standard)
              case Err(e) => r == Err(e)
              case Ok(est) =>
                && r.Ok?
                && r.value.gasLimit == Some(est.gasEstimate)
                && (r.value.gasPrice.Some? <==> !est.supportsEip1559)
                && (r.value.maxFeePerGas.Some? <==> est.supportsEip1559)
                && (r.value.maxPriorityFeePerGas.Some? <==> est.supportsEip1559)
                && (est.supportsEip1559 ==>
                      r.value.maxFeePerGas == est.maxFeePerGas && r.value.maxPriorityFeePerGas == est.maxPriorityFeePerGas)
                && (!est.supportsEip1559 ==> r.value.gasPrice == Some(est.gasPrice))
    ensures options.Some? && !NoKeys(options.value) ==>
              r == Ok(GasChoice(Chosen(options.value.gasLimit), Chosen(options.value.gasPrice),
                                Chosen(options.value.maxFeePerGas), Chosen(options.value.maxPriorityFeePerGas)))
  {
    if options.None? || NoKeys(options.value) then
      match EstimateGasForTransfer(raw, fee, Standard)
      case Err(e) => Err(e)
      case Ok(est) =>
        if est.supportsEip1559 then Ok(GasChoice(Some(est.gasEstimate), None, est.maxFeePerGas, est.maxPriorityFeePerGas))
        else Ok(GasChoice(Some(est.gasEstimate), Some(est.gasPrice), None, None))
    else
      var o := options.value;
      Ok(GasChoice(Chosen(o.gasLimit), Chosen(o.gasPrice), Chosen(o.maxFeePerGas), Chosen(o.maxPriorityFeePerGas)))
  }

  /** The gas fields of the transaction request (or of the token call's overrides). */
  datatype TxFees = TxFees(
    gasLimit: Option<int>,
    gasPrice: Option<int>,
    maxFeePerGas: Option<int>,
    maxPriorityFeePerGas: Option<int>)

  /** Field-by-field construction of the request's gas fields: a truthy gas
      limit is attached; both EIP-1559 fields when both are truthy, else the gas
      price when it is truthy. A request never carries both fee kinds. */
  function AttachFees(choice: GasChoice): (fees: TxFees)
    ensures fees.gasLimit == if Truthy(choice.gasLimit) then choice.gasLimit else None
    ensures fees.maxFeePerGas.Some? <==> Truthy(choice.maxFeePerGas) && Truthy(choice.maxPriorityFeePerGas)
    ensures fees.maxFeePerGas.Some? <==> fees.maxPriorityFeePerGas.Some?
    ensures fees.maxFeePerGas.Some? ==>
              fees.maxFeePerGas == choice.maxFeePerGas && fees.maxPriorityFeePerGas == choice.maxPriorityFeePerGas
    ensures fees.gasPrice.Some? <==> fees.maxFeePerGas.None? && Truthy(choice.gasPrice)
    ensures fees.gasPrice.Some? ==> fees.gasPrice == choice.gasPrice
    ensures !(fees.gasPrice.Some? && fees.maxFeePerGas.Some?)
  {
    var gasLimit := if Truthy(choice.gasLimit) then choice.gasLimit else None;
    if Truthy(choice.maxFeePerGas) && Truthy(choice.maxPriorityFeePerGas) then
      TxFees(gasLimit, None, choice.maxFeePerGas, choice.maxPriorityFeePerGas)
    else if Truthy(choice.gasPrice) then TxFees(gasLimit, choice.gasPrice, None, None)
    else TxFees(gasLimit, None, None, None)
  }

  /** Without caller options, on a network with a positive gas price, the
      request carries exactly one fee model: the EIP-1559 pair when the network
      supports it, the gas price otherwise. */
  lemma EstimatedRequestHasOneFeeModel(options: Option<GasOptions>, raw: Option<int>, fee: FeeData)
    requires options.None? || NoKeys(options.value)
    requires SelectGas(options, raw, fee).Ok?
    requires fee.gasPrice.value > 0
    ensures AttachFees(SelectGas(options, raw, fee).value).maxFeePerGas.Some? <==> SupportsEip1559(fee)
    ensures AttachFees(SelectGas(options, raw, fee).value).gasPrice.Some? <==> !SupportsEip1559(fee)
  {
    var est := EstimateGasForTransfer(raw, fee, Standard).value;
    if SupportsEip1559(fee) {
      assert est.maxFeePerGas == Some(fee.maxFeePerGas.value);
      assert est.maxPriorityFeePerGas == Some(fee.maxPriorityFeePerGas.value);
    } else {
      assert est.gasPrice == fee.gasPrice.value;
    }
  }

  /** The wallet row (`Wallet.findOne` by user and address). */
  datatype WalletRecord = WalletRecord(address: string, vaultKeyPath: string)

  /** What is signed and submitted: native value or an ERC-20 `transfer` call. */
  datatype TxRequest = TxRequest(to: string, amount: string, tokenAddress: Option<string>, fees: TxFees)

  datatype TransferReceipt = TransferReceipt(
    transactionHash: string,
    from: string,
    to: string,
    amount: string,
    tokenAddress: Option<string>,
    status: string,
    gasLimit: Option<int>,
    gasPrice: Option<int>,
    maxFeePerGas: Option<int>,
    maxPriorityFeePerGas: Option<int>)

  const SendFailed: string := "Failed to send token: "

  class WalletService {
    const vault: VaultService

    constructor (vault: VaultService)
      ensures this.vault == vault
    {
      this.vault := vault;
    }

    /** `sendToken`. `wallet` is the database lookup, `raw` and `fee` the
        node's answers for the standard-tier estimate, `submitted` the node's
        answer to the signed request (its hash, or its error message). The
        request sent carries the fields `AttachFees` builds from the gas
        choice, and the receipt reports the gas choice itself. */
    method SendToken(wallet: Option<WalletRecord>, walletAddress: string, toAddress: string, amount: string,
                     tokenAddress: Option<string>, options: Option<GasOptions>, raw: Option<int>, fee: FeeData,
                     submitted: Result<string>, now: int)
      returns (r: Result<TransferReceipt>, ghost sent: Option<TxRequest>)
      modifies vault.cache
      ensures wallet.None? ==> r == Err(SendFailed + "Wallet not found") && unchanged(vault.cache) && sent.None?
      ensures wallet.Some? ==>
                vault.cache.entries == Retrieve(vault.crypto, vault.config, vault.records, old(vault.cache.entries),
                                                wallet.value.vaultKeyPath, now).cache
      ensures wallet.Some? && Retrieve(vault.crypto, vault.config, vault.records, old(vault.cache.entries),
                                       wallet.value.vaultKeyPath, now).result.Err? ==>
                r == Err(SendFailed + RetrieveFailed) && sent.None?
      ensures wallet.Some? && Retrieve(vault.crypto, vault.config, vault.records, old(vault.cache.entries),
                                       wallet.value.vaultKeyPath, now).result.Ok? ==>
                match SelectGas(options, raw, fee)
                case Err(e) => r == Err(SendFailed + e) && sent.None?
                case Ok(choice) =>
                  && sent == Some(TxRequest(toAddress, amount, tokenAddress, AttachFees(choice)))
                  && r == match submitted
                          case Err(e) => Err(SendFailed + e)
                          case Ok(hash) =>
                            Ok(TransferReceipt(hash, walletAddress, toAddress, amount, tokenAddress, "pending",
                                               choice.gasLimit, choice.gasPrice, choice.maxFeePerGas,
                                               choice.maxPriorityFeePerGas))
    {
      sent := None;
      if wallet.None? {
        return Err(SendFailed + "Wallet not found"), sent;
      }
      var privateKey := vault.GetPrivateKey(wallet.value.vaultKeyPath, now);
      if privateKey.Err? {
        return Err(SendFailed + privateKey.error), sent;
      }
      var choice := SelectGas(options, raw, fee);
      if choice.Err? {
        return Err(SendFailed + choice.error), sent;
      }
      var c := choice.value;
      var fees := AttachFees(c);
      sent := Some(TxRequest(toAddress, amount, tokenAddress, fees));
      if submitted.Err? {
        return Err(SendFailed + submitted.error), sent;
      }
      r := Ok(TransferReceipt(submitted.value, walletAddress, toAddress, amount, tokenAddress, "pending",
                              c.gasLimit, c.gasPrice, c.maxFeePerGas, c.maxPriorityFeePerGas));
    }
  }
}

=== FILE: walletreducer.dfy ===
/** The wallet screen's state machine (`walletReducer` of the wallet context):
    a total function from a state and an action to the next state. */
module WalletReducer {
  import opened Prelude

  datatype Wallet = Wallet(id: string, address: string, name: string, createdAt: string, updatedAt: string)

  datatype TokenBalance = TokenBalance(
    symbol: string,
    name: string,
    balance: string,
    address: Option<string>,
    decimals: int,
    logoURI: Option<string>,
    error: Option<string>)

  datatype WalletState = WalletState(
    wallets: seq<Wallet>,
    selectedWallet: Option<Wallet>,
    balances: map<string, seq<TokenBalance>>,
    isLoading: bool,
    error: Option<string>)

  /** The dispatched actions; `Other` is any action type the reducer does not
      handle (its `default` branch). */
  datatype WalletAction =
    | LoadWalletsRequest
    | LoadWalletsSuccess(wallets: seq<Wallet>)
    | LoadWalletsFailure(message: string)
    | GenerateWalletRequest
    | GenerateWalletSuccess(wallet: Wallet)
    | GenerateWalletFailure(message: string)
    | SelectWallet(wallet: Wallet)
    | LoadBalancesRequest(address: string)
    | LoadBalancesSuccess(address: string, tokenBalances: seq<TokenBalance>)
    | LoadBalancesFailure(address: string, message: string)
    | Other

  const InitialState: WalletState := WalletState([], None, map[], false, None)

  /** The reducer never loses a selection once made, and never forgets the
      balances of an address. */
  function Reduce(s: WalletState, a: WalletAction): (r: WalletState)
    ensures s.selectedWallet.Some? ==> r.selectedWallet.Some?
    ensures s.balances.Keys <= r.balances.Keys
    ensures !a.LoadWalletsSuccess? ==> s.wallets <= r.wallets
  {
    match a
    case LoadWalletsRequest => s.(isLoading := true, error := None)
    case GenerateWalletRequest => s.(isLoading := true, error := None)
    case LoadWalletsSuccess(ws) =>
      s.(isLoading := false, wallets := ws,
         selectedWallet := if s.selectedWallet.Some? then s.selectedWallet
                           else if |ws| > 0 then Some(ws[0]) else None,
         error := None)
    case GenerateWalletSuccess(w) =>
      s.(isLoading := false, wallets := s.wallets + [w], selectedWallet := Some(w), error := None)
    case LoadWalletsFailure(msg) => s.(isLoading := false, error := Some(msg))
    case GenerateWalletFailure(msg) => s.(isLoading := false, error := Some(msg))
    case SelectWallet(w) => s.(selectedWallet := Some(w))
    case LoadBalancesRequest(_) => s.(isLoading := true)
    case LoadBalancesSuccess(addr, bs) => s.(isLoading := false, balances := s.balances[addr := bs])
    case LoadBalancesFailure(_, msg) => s.(isLoading := false, error := Some(msg))
    case Other => s
  }

  /** Loading wallets replaces the list and keeps an existing selection;
      without one it selects the first loaded wallet, or none for an empty list. */
  lemma LoadWalletsKeepsSelection(s: WalletState, ws: seq<Wallet>)
    ensures Reduce(s, LoadWalletsSuccess(ws)).wallets == ws
    ensures s.selectedWallet.Some? ==> Reduce(s, LoadWalletsSuccess(ws)).selectedWallet == s.selectedWallet
    ensures s.selectedWallet.None? && |ws| > 0 ==> Reduce(s, LoadWalletsSuccess(ws)).selectedWallet == Some(ws[0])
    ensures s.selectedWallet.None? && ws == [] ==> Reduce(s, LoadWalletsSuccess(ws)).selectedWallet.None?
    ensures Reduce(s, LoadWalletsSuccess(ws)).balances == s.balances
    ensures !Reduce(s, LoadWalletsSuccess(ws)).isLoading && Reduce(s, LoadWalletsSuccess(ws)).error.None?
  {
  }

  /** A generated wallet is appended (one more wallet, the earlier ones in
      place) and becomes the selection; loading ends and the error clears. */
  lemma GenerateWalletAppendsAndSelects(s: WalletState, w: Wallet)
    ensures |Reduce(s, GenerateWalletSuccess(w)).wallets| == |s.wallets| + 1
    ensures Reduce(s, GenerateWalletSuccess(w)).wallets[..|s.wallets|] == s.wallets
    ensures Reduce(s, GenerateWalletSuccess(w)).wallets[|s.wallets|] == w
    ensures Reduce(s, GenerateWalletSuccess(w)).selectedWallet == Some(w)
    ensures Reduce(s, GenerateWalletSuccess(w)).balances == s.balances
    ensures !Reduce(s, GenerateWalletSuccess(w)).isLoading && Reduce(s, GenerateWalletSuccess(w)).error.None?
  {
  }

  /** Loaded balances land under their address only, and loading ends. */
  lemma BalancesAreLocal(s: WalletState, addr: string, bs: seq<TokenBalance>, other: string)
    requires other != addr
    ensures Reduce(s, LoadBalancesSuccess(addr, bs)).balances[addr] == bs
    ensures other in Reduce(s, LoadBalancesSuccess(addr, bs)).balances <==> other in s.balances
    ensures other in s.balances ==> Reduce(s, LoadBalancesSuccess(addr, bs)).balances[other] == s.balances[other]
    ensures Reduce(s, LoadBalancesSuccess(addr, bs)).wallets == s.wallets
    ensures Reduce(s, LoadBalancesSuccess(addr, bs)).selectedWallet == s.selectedWallet
    ensures Reduce(s, LoadBalancesSuccess(addr, bs)).error == s.error
    ensures !Reduce(s, LoadBalancesSuccess(addr, bs)).isLoading
  {
  }

  /** The wallet requests start loading and clear the error; the balance
      request starts loading but keeps the error. */
  lemma RequestsStartLoading(s: WalletState, addr: string)
    ensures Reduce(s, LoadWalletsRequest) == s.(isLoading := true, error := None)
    ensures Reduce(s, GenerateWalletRequest) == s.(isLoading := true, error := None)
    ensures Reduce(s, LoadBalancesRequest(addr)) == s.(isLoading := true)
  {
  }

  predicate IsFailure(a: WalletAction) {
    a.LoadWalletsFailure? || a.GenerateWalletFailure? || a.LoadBalancesFailure?
  }

  /** Every failure stops loading and records its message, and touches
      neither the wallets, the selection nor the balances. */
  lemma FailuresRecordError(s: WalletState, a: WalletAction)
    requires IsFailure(a)
    ensures Reduce(s, a) == s.(isLoading := false, error := Some(a.message))
  {
  }

  /** Selecting changes only the selection; an unhandled action changes nothing. */
  lemma SelectAndOther(s: WalletState, w: Wallet)
    ensures Reduce(s, SelectWallet(w)) == s.(selectedWallet := Some(w))
    ensures Reduce(s, Other) == s
  {
  }
}
